=== FILE: README.md ===
# Knowledge Stack: a Dafny model of the quiz game's logic

Knowledge Stack is a Unity quiz game with a small Node.js progress server and
two Python repair scripts for its question catalog. This project models its
logic in Dafny and proves properties of that model:

- **Question distribution engine** (`QuestionManager.cs`). A level asks for a
  quota of questions per difficulty tier 1..4. Each tier is filled from the
  questions the player has not been served yet, and a shortfall cascades to
  the next harder tier. A pool-wide fill tops the level up to ten. When even
  that falls short, the served history is reset and the pool fill runs again.
  The engine also keeps the served set, persists it as a comma-joined string,
  and shuffles a question's answers with a Fisher–Yates pass.
- **Progress server** (`Server/server.js`). Login fetches a player's record or
  creates it with the schema defaults. Sync writes level, score and a solved
  question into an existing record.
- **JSON repair scripts.** `smart_fix_json.py` scans for the bracket that
  closes the `"questions"` array and truncates or closes the text there.
  `fix_json.py` cuts after the object holding the last `"difficulty"` key and
  closes the array.
- **Block tower** (`GameController.cs`). It is a stack of at most ten blocks:
  a correct answer pushes one, and a finished acid melt pops one. Each
  coloured block gets a colour that differs from the previous one.

## Modules

| file | module | models |
|---|---|---|
| `wrappers.dfy` | `Wrappers` | `Option` |
| `questions.dfy` | `Questions` | the question record, ID sets, the unseen-question filter |
| `catalogs.dfy` | `Catalogs` | the four difficulty buckets and `ProcessLoadedQuestions` |
| `distribution.dfy` | `Distribution` | the quota table `GetDistributionForLevel` |
| `history.dfy` | `ServedHistory` | the served set, its marks, resets and comma-string persistence |
| `engine.dfy` | `Engine` | tier fill, pool fill and `GetQuestionsForLevel` |
| `answers.dfy` | `Answers` | `GetShuffledAnswers` |
| `progress.dfy` | `Progress` | the login and sync routes of the server |
| `pytext.dfy` | `PyText` | Python's `str.find` and `str.rfind` |
| `smartfix.dfy` | `SmartFixJson` | `smart_fix_json.py` |
| `fixjson.dfy` | `FixJson` | `fix_json.py` |
| `blockstack.dfy` | `BlockStack` | the block stack and colour picker of `GameController.cs` |

Modelling choices:

- **Served set.** The engine's mutable fields become explicit state. The
  served set is passed in, and every fill returns the questions it appended
  together with the new served set (`Engine.Pick`).
- **Random order.** `OrderBy(x => Random.value)` is an injected
  `Engine.Shuffle`. It is any function that returns a rearrangement of each
  list it is given. One such function serves every `OrderBy` of a level
  request, so the same candidate list always gets the same order, where the
  game draws a fresh order on every call. No property proved here depends on
  two orders of the same list being alike.
- **Other random draws.** `Random.Range` in the answer shuffle and in the
  block code is injected as the sequence of values the generator returns.
- **Tier order.** The dictionary of quotas is iterated in ascending tier order
  1, 2, 3, 4. The source relies on the insertion order of its literal
  dictionaries for this.
- **Question IDs.** They are 32-bit, as in C#.
- **Server store.** The user collection is a map from `userId` to record.
  Optional request fields are `Option`s, JavaScript truthiness is modelled
  explicitly, and the clock is a parameter.
- **Repair scripts.** Each one is a function from the file text to the new
  text, or `None` when the script writes nothing.

Behaviour of the code worth knowing:

- **Levels below 1.** They are not rejected and get the first quota row.
- **Small catalogs.** A catalog with fewer than ten questions is not an error.
  The level simply has fewer questions.
- **Bad difficulties.** Loading drops them silently instead of failing.
  Duplicate IDs are not rejected either.
- **Sync for an unknown player.** It answers 404 and creates no record.
- **Reset branch.** After a reset, the refill draws from the whole catalog,
  including the questions already placed in the level. A one-question catalog
  therefore yields that question twice (`Engine.RepeatAfterReset`).

Most engine properties are stated under the condition that the catalog's
question IDs are pairwise distinct (`Questions.DistinctIds`). The code does
not enforce that.

## Model

| member | source | states |
|---|---|---|
| `Questions.Unseen` | knowledgestack/Assets/Scripts/Managers/QuestionManager.cs:146-147 | a question survives the filter exactly when it is in the list and its ID is not served |
| `Catalogs.ProcessLoadedQuestions` | knowledgestack/Assets/Scripts/Managers/QuestionManager.cs:67-75 | each bucket keeps its old contents as a prefix; every loaded question with difficulty 1..4 ends up in its difficulty's bucket; a bucket gains only questions of its own difficulty |
| `Catalogs.ProcessLoadedQuestionsKeepsSorted` | knowledgestack/Assets/Scripts/Managers/QuestionManager.cs:69-75 | if every bucket held only its own difficulty before a load, it still does afterwards |
| `Catalogs.ProcessLoadedQuestionsMembers` | knowledgestack/Assets/Scripts/Managers/QuestionManager.cs:69-75 | a question is in the loaded catalog iff it was there before or arrived with a difficulty in 1..4 |
| `Catalogs.ProcessLoadedQuestionsSize` | knowledgestack/Assets/Scripts/Managers/QuestionManager.cs:69-75 | the catalog grows by exactly the number of loaded questions whose difficulty is in 1..4; the others are dropped |
| `Catalogs.LoadIntoEmpty` | knowledgestack/Assets/Scripts/Managers/QuestionManager.cs:40-41 | the first load into the four fresh empty buckets gives a sorted catalog holding exactly the loaded questions with difficulty 1..4, as many as the load minus those out of range |
| `Distribution.GetDistributionForLevel` | knowledgestack/Assets/Scripts/Managers/QuestionManager.cs:131-137 | every level gets one of the four rows and each row asks for 10 questions; the first row is used iff level <= 20 (levels below 1 included), the second iff 21 <= level <= 40, the third iff 41 <= level <= 80, the last iff level > 80 |
| `Distribution.DistributionRampsUp` | knowledgestack/Assets/Scripts/Managers/QuestionManager.cs:133-136 | a higher level never asks for more tier-1 questions, nor for fewer tier-3 or tier-4 questions |
| `ServedHistory.MarkAsServed` | knowledgestack/Assets/Scripts/Managers/QuestionManager.cs:203-210 | the ID is served afterwards; the set only grows, by at most that ID; marking an ID already served changes nothing |
| `ServedHistory.IntToString` | knowledgestack/Assets/Scripts/Managers/QuestionManager.cs:228 | a non-empty string without commas: the digits of a non-negative number, a minus sign followed by digits for a negative one |
| `ServedHistory.TryParseInt` | knowledgestack/Assets/Scripts/Managers/QuestionManager.cs:221 | the parse fails for an empty or all-white-space string and for any string holding a character that is not a digit, a sign or white space |
| `ServedHistory.JoinCommas` | knowledgestack/Assets/Scripts/Managers/QuestionManager.cs:228 | joining n comma-free pieces puts exactly n - 1 commas into the text (none for no pieces) |
| `ServedHistory.SplitPieces` | knowledgestack/Assets/Scripts/Managers/QuestionManager.cs:218 | splitting gives one piece more than the text has commas, and no piece holds a comma |
| `ServedHistory.IntToStringRoundTrip` | knowledgestack/Assets/Scripts/Managers/QuestionManager.cs:219-221 | `int.TryParse` of a printed 32-bit integer gives that integer back |
| `ServedHistory.SplitJoin` | knowledgestack/Assets/Scripts/Managers/QuestionManager.cs:218-228 | splitting at commas undoes joining with commas when no piece contains a comma |
| `ServedHistory.SaveServedQuestions` | knowledgestack/Assets/Scripts/Managers/QuestionManager.cs:226-231 | no IDs save as the empty string; n IDs save with n - 1 commas, and the i-th comma-separated piece parses back to the i-th ID |
| `ServedHistory.LoadServedQuestions` | knowledgestack/Assets/Scripts/Managers/QuestionManager.cs:212-224 | an absent key loads as the empty set; a stored string loads at most one ID per comma-separated piece |
| `ServedHistory.ParsedIdsCount` | knowledgestack/Assets/Scripts/Managers/QuestionManager.cs:218-222 | the pieces of a split yield at most as many IDs as there are pieces |
| `ServedHistory.SaveLoadRoundTrip` | knowledgestack/Assets/Scripts/Managers/QuestionManager.cs:212-231 | loading the saved string gives back exactly the saved IDs, in any enumeration order |
| `ServedHistory.LoadHistory` | knowledgestack/Assets/Scripts/Managers/QuestionManager.cs:212-224 | the history keeps the stored string it was loaded from, and the loaded set agrees with it; an absent key loads as the empty set |
| `ServedHistory.MarkAndSave` | knowledgestack/Assets/Scripts/Managers/QuestionManager.cs:203-210 | the set becomes the marked set; an already-served ID changes neither set nor store; the stored string stays in agreement with the set |
| `ServedHistory.ResetServedQuestions` | knowledgestack/Assets/Scripts/Managers/QuestionManager.cs:233-238 | the set is empty afterwards and the key is deleted (nothing stored), which loads as that empty set |
| `Engine.Shuffled` | knowledgestack/Assets/Scripts/Managers/QuestionManager.cs:148 | the shuffled list is a permutation of the input (same multiset of questions), and keeps IDs distinct |
| `Engine.MarkEach` | knowledgestack/Assets/Scripts/Managers/QuestionManager.cs:153-157 | marking each question of a list in turn adds exactly the list's IDs to the served set |
| `Engine.Append` | knowledgestack/Assets/Scripts/Managers/QuestionManager.cs:162-166 | appending unseen questions and marking them is a fresh pick: the served set grows by exactly their IDs |
| `Engine.Nothing` | knowledgestack/Assets/Scripts/Managers/QuestionManager.cs:141 | a fill that returns early appends nothing and leaves the served set as it was |
| `Engine.AddQuestionsByDifficulty` | knowledgestack/Assets/Scripts/Managers/QuestionManager.cs:139-181 | count <= 0 changes neither list nor served set; otherwise the fill appends at most count unseen questions of tiers d..4 and marks exactly them; it draws only from tier d when d has enough; when d is short it takes all of tier d's unseen questions first, in some order, and the rest of the list is a tier fill of d+1 from the served set with those marked, so the cascade repeats down to tier 4, where it stops; with distinct IDs it appends min(count, unseen in tiers d..4) distinct questions; a tier above 4 reads as 4 |
| `Engine.Spill` | knowledgestack/Assets/Scripts/Managers/QuestionManager.cs:159-174 | a short tier d gives all its unseen questions first, then a tier fill of d+1 for the shortfall from the served set with them marked; the whole meets the tier-fill promise of d |
| `Engine.EnoughInTier` | knowledgestack/Assets/Scripts/Managers/QuestionManager.cs:151-158 | a tier with at least count unseen questions fills the request from its own unseen questions |
| `Engine.SpillFill` | knowledgestack/Assets/Scripts/Managers/QuestionManager.cs:159-174 | tier d's unseen questions, in any order, followed by a tier fill of d+1 from the served set with them marked make a tier fill of d |
| `Engine.LastTierFill` | knowledgestack/Assets/Scripts/Managers/QuestionManager.cs:171-179 | a short tier 4 hands out what it has and the cascade stops there |
| `Engine.CascadeFacts` | knowledgestack/Assets/Scripts/Managers/QuestionManager.cs:169-174 | with distinct IDs, the cascade's two parts are disjoint and together number min(count, unseen in tiers d..4) |
| `Engine.LaterTiersUnaffected` | knowledgestack/Assets/Scripts/Managers/QuestionManager.cs:162-173 | with distinct IDs, marking questions of tier d leaves the list of unseen questions of the harder tiers exactly as it was |
| `Engine.FreshPickUnseen` | knowledgestack/Assets/Scripts/Managers/QuestionManager.cs:146-157 | with distinct IDs, a fresh pick of n catalog questions leaves exactly n fewer unseen |
| `Engine.Take` | knowledgestack/Assets/Scripts/Managers/QuestionManager.cs:193 | `Take(count)` gives the first min(count, length) elements of the list, in order, none for count <= 0 |
| `Engine.PoolCandidates` | knowledgestack/Assets/Scripts/Managers/QuestionManager.cs:187-191 | gathering the unseen questions bucket by bucket yields the catalog's unseen questions |
| `Engine.AddQuestionsAny` | knowledgestack/Assets/Scripts/Managers/QuestionManager.cs:184-199 | the pool fill appends exactly min(count, unseen in the catalog) catalog questions (none for count <= 0), all unseen beforehand and marked afterwards, distinct when catalog IDs are |
| `Engine.QuotaStep` | knowledgestack/Assets/Scripts/Managers/QuestionManager.cs:103-109 | the fill of tier d (nothing for a zero count, a tier fill for the count otherwise, from the served set the earlier turns left) is recorded as tier d's turn; the joined list grows by exactly its questions; the list stays a fresh pick of catalog questions no longer than the quota asked so far |
| `Engine.TierUnseenKept` | knowledgestack/Assets/Scripts/Managers/QuestionManager.cs:103-109 | with distinct IDs, marking only questions of the tiers before tier d leaves tier d's unseen questions as they were at the start of the level |
| `Engine.TurnTakesShare` | knowledgestack/Assets/Scripts/Managers/QuestionManager.cs:141-158 | with distinct IDs, a turn of a tier holding at least its count unseen takes exactly that count, all unseen questions of that tier, and marks only their IDs |
| `Engine.TurnStep` | knowledgestack/Assets/Scripts/Managers/QuestionManager.cs:103-109 | with distinct IDs and every tier holding its count unseen, turn k takes tier k's count from tier k's unseen questions and the served set then differs from the start only by IDs of tiers 1..k |
| `Engine.QuotaMetUpTo` | knowledgestack/Assets/Scripts/Managers/QuestionManager.cs:103-109 | with distinct IDs and every tier holding its count unseen, each of the first k turns takes exactly its tier's count of that tier's unseen questions |
| `Engine.ShareOfJoined` | knowledgestack/Assets/Scripts/Managers/QuestionManager.cs:103-109 | when every turn took its tier's count, the joined list has the quota's total and tier d's slice of it is exactly turn d's list |
| `Engine.QuotaMet` | knowledgestack/Assets/Scripts/Managers/QuestionManager.cs:103-109 | with distinct IDs and every tier holding its count unseen, the four turns joined follow the quota: the total count, and tier d's slice drawn from tier d's unseen questions |
| `Engine.FillQuota` | knowledgestack/Assets/Scripts/Managers/QuestionManager.cs:103-109 | the quota loop's list is the four tier turns joined in order, each turn a tier fill for its tier's count starting where the previous turn left the served set; it is a fresh pick of at most the quota's total, distinct when catalog IDs are; with distinct IDs and every tier holding its count unseen, the list has exactly the quota's total and each tier's slice holds only unseen questions of that tier |
| `Engine.QuotaFull` | knowledgestack/Assets/Scripts/Managers/QuestionManager.cs:112-113 | a quota fill that reached ten needs no fallback |
| `Engine.TopUpFill` | knowledgestack/Assets/Scripts/Managers/QuestionManager.cs:112-117 | a short quota fill topped up by the pool fill is a fresh pick of at most ten, with distinct IDs exactly min(10, unseen) |
| `Engine.FirstPass` | knowledgestack/Assets/Scripts/Managers/QuestionManager.cs:101-117 | before any reset the level is a fresh pick of at most ten catalog questions that opens with the quota loop's four recorded tier turns, in tier order; with distinct IDs it holds ten, or every unseen one when fewer are left; with distinct IDs and every tier holding its count of the level's quota unseen, it follows that quota tier by tier |
| `Engine.WithoutReset` | knowledgestack/Assets/Scripts/Managers/QuestionManager.cs:120 | a first pass of ten is the whole level, with no reset |
| `Engine.WithReset` | knowledgestack/Assets/Scripts/Managers/QuestionManager.cs:119-126 | after a reset the level holds min(10, unseen + catalog size) questions; with distinct IDs it opens with a rearrangement of the unseen questions (each exactly once), the refill that follows has distinct IDs, and the served set is exactly the refill's IDs |
| `Engine.OpensWithLonger` | knowledgestack/Assets/Scripts/Managers/QuestionManager.cs:119-126 | a list that opens with the quota loop's turns still does after the reset's refill is appended |
| `Engine.ShortPassMissesQuota` | knowledgestack/Assets/Scripts/Managers/QuestionManager.cs:111-120 | a first pass short of ten means the catalog repeats an ID or some tier held fewer unseen questions than its count |
| `Engine.ResetOpensWithUnseen` | knowledgestack/Assets/Scripts/Managers/QuestionManager.cs:119-126 | with distinct IDs, a short first pass is a rearrangement of the unseen questions (same multiset), and it opens the level |
| `Engine.ResetSize` | knowledgestack/Assets/Scripts/Managers/QuestionManager.cs:119-126 | a short list topped up from the whole catalog after the reset holds min(10, list + catalog size) questions, all from the catalog, and exactly ten when the catalog has ten |
| `Engine.GetQuestionsForLevel` | knowledgestack/Assets/Scripts/Managers/QuestionManager.cs:98-129 | at most ten catalog questions, exactly ten when the catalog holds ten, opening with the quota loop's four recorded tier turns (reset or not); without a reset ten unseen questions, all marked; with distinct IDs: a reset happens iff fewer than ten questions were unseen, the list is distinct when there is no reset, it follows the level's quota tier by tier when every tier has its count unseen, and after a reset the list opens with each unseen question exactly once, the refill has distinct IDs, and only the refill's IDs are served |
| `Engine.RepeatAfterReset` | knowledgestack/Assets/Scripts/Managers/QuestionManager.cs:119-126 | a one-question catalog with nothing served yields that question twice in one level, through the reset |
| `Answers.Unshuffled` | knowledgestack/Assets/Scripts/Managers/QuestionManager.cs:243-245 | the list before shuffling has 1 + wrong-count entries: the answer first, then the wrong answers in order |
| `Answers.SwapPermutes` | knowledgestack/Assets/Scripts/Managers/QuestionManager.cs:248-251 | exchanging two entries keeps the multiset of entries |
| `Answers.GetShuffledAnswers` | knowledgestack/Assets/Scripts/Managers/QuestionManager.cs:241-255 | the result is a permutation of the answer and the wrong answers, of length 1 + wrong-count; its first slot holds the first draw's pick; draws that always return their lower bound leave the order unchanged |
| `Progress.Login` | knowledgestack/Server/server.js:23-37 | 400 with no change iff the userId is missing or empty; otherwise 200, the existing record unchanged, or a new record with level 1, score 0, nothing served; other records untouched |
| `Progress.LoginTwice` | knowledgestack/Server/server.js:28-33 | a second login at any time changes nothing and returns the same record |
| `Progress.Merge` | knowledgestack/Server/server.js:59-66 | level and score are replaced (not incremented) only by truthy values; a truthy solved ID is present afterwards; a new one is appended at the end and anything else leaves the list unchanged; a duplicate-free list stays duplicate-free; userId is kept and lastLogin set |
| `Progress.Sync` | knowledgestack/Server/server.js:52-73 | 404 with no change iff the user is unknown; otherwise only that user's record is replaced by the merged one, which is sent back |
| `Progress.SyncIdempotent` | knowledgestack/Server/server.js:59-66 | sending the same sync twice leaves the record as one send did, apart from lastLogin |
| `Progress.SyncAfterLoginFindsUser` | knowledgestack/Server/server.js:28-57 | after a login with a non-empty ID, a sync for that ID succeeds |
| `PyText.Find` | knowledgestack/smart_fix_json.py:9 | `find` returns the first occurrence at or after the start, or -1 when there is none |
| `PyText.RFind` | knowledgestack/fix_json.py:27 | `rfind` returns the last occurrence, or -1 when there is none |
| `PyText.FindChar` | knowledgestack/smart_fix_json.py:14 | the first index at or after start holding the character, or -1 when none does |
| `PyText.RFindChar` | knowledgestack/smart_fix_json.py:72 | the last index holding the character; -1 iff the character is absent |
| `SmartFixJson.StepRules` | knowledgestack/smart_fix_json.py:30-46 | a backslash skips the next character in and out of strings; a quote toggles the string state; only brackets outside strings move the balance, braces never do |
| `SmartFixJson.FirstClose` | knowledgestack/smart_fix_json.py:27-49 | the first position whose unescaped `]` outside a string brings the balance to 0, or -1 when no position does |
| `SmartFixJson.ScanForCutoff` | knowledgestack/smart_fix_json.py:21-49 | the loop returns that first closing position, which holds `]` |
| `SmartFixJson.ArrayOpenUntilCutoff` | knowledgestack/smart_fix_json.py:42-49 | from the opening `[` until the scan stops, the balance stays at least 1 |
| `SmartFixJson.CutoffMatchesOpening` | knowledgestack/smart_fix_json.py:21-49 | the cut-off is a `]` after the opening bracket, the balance is 0 right after it and at least 1 everywhere before it: it matches the opening `[` |
| `SmartFixJson.ArrayStart` | knowledgestack/smart_fix_json.py:9-17 | -1 iff the `"questions":` key is missing or no `[` follows its first occurrence; otherwise the first `[` at or after the key |
| `SmartFixJson.SmartFix` | knowledgestack/smart_fix_json.py:9-82 | nothing is written when the key or the `[` after it is missing; any text written ends in `}` |
| `SmartFixJson.Rewrite` | knowledgestack/smart_fix_json.py:51-82 | any text written ends in `}` |
| `SmartFixJson.ClosedArrayOutcome` | knowledgestack/smart_fix_json.py:51-63 | with a cut-off: the text up to the first `}` at or after it, or, with no such `}`, the text up to the cut-off plus a closing `}` |
| `SmartFixJson.UnclosedArrayOutcome` | knowledgestack/smart_fix_json.py:69-82 | without a cut-off: the text up to the last `}` plus the array and document ends when that `}` lies after the `[`, and nothing written otherwise |
| `SmartFixJson.SmartFixKeepsHead` | knowledgestack/smart_fix_json.py:51-82 | any text written keeps the original up to and including the array's `[` |
| `SmartFixJson.RewriteKeepsHead` | knowledgestack/smart_fix_json.py:51-82 | each of the three rewrites keeps the original text up to and including the opening `[` |
| `FixJson.CutPoint` | knowledgestack/fix_json.py:27-31 | the cut point is -1 or an index holding `}` |
| `FixJson.CutPointIsFirstBraceAfterKey` | knowledgestack/fix_json.py:27-31 | the cut point is the first `}` at or after the last `"difficulty"` key; it is -1 iff the key is missing or no `}` follows it |
| `FixJson.FixJson` | knowledgestack/fix_json.py:5-41 | text is written iff the file has at least 300 bytes, a `}` among its last 300, and a cut point; the output is the prefix through the cut point followed by the array and document ends |
| `FixJson.NoKeyAcrossCut` | knowledgestack/fix_json.py:33 | every `"difficulty"` key in the rewritten text was already in the original at the same place |
| `FixJson.LastKeyStable` | knowledgestack/fix_json.py:27-33 | the last `"difficulty"` key of the rewritten text is the original's last key |
| `FixJson.CutPointStable` | knowledgestack/fix_json.py:27-33 | the rewritten text has the same cut point as the original |
| `FixJson.FixIdempotent` | knowledgestack/fix_json.py:5-41 | running the script twice leaves the file as one run did |
| `BlockStack.GetRandomNextColor` | knowledgestack/Assets/Scripts/Game/GameController.cs:239-252 | the index is in the palette; with more than one colour it differs from the last one; it is the first draw that differs, or the first draw for a one-colour palette or a last index outside the palette (the initial -1) |
| `BlockStack.SpawnBlock` | knowledgestack/Assets/Scripts/Game/GameController.cs:96-159 | no change at height 10; otherwise exactly one block is pushed into slot = old height; the tower stays valid (height <= 10); a sprite block takes the drawn sprite and keeps `lastColorIndex`; a coloured block takes the new `lastColorIndex`, which differs from the old one when the palette has more than one colour and is the first draw when the old index lies outside the palette |
| `BlockStack.FirstSpawn` | knowledgestack/Assets/Scripts/Game/GameController.cs:30-32 | on the initial board (no blocks, last colour -1) the first block sits in slot 0, and a coloured one takes the very first draw, with no retry |
| `BlockStack.AcidTarget` | knowledgestack/Assets/Scripts/Game/GameController.cs:163-167 | nothing iff the tower is empty; otherwise the top block, which sits in the top slot; the tower is not changed |
| `BlockStack.CompleteMelt` | knowledgestack/Assets/Scripts/Game/GameController.cs:236 | removes the top block iff there is one; the colour memory and the tower's validity are kept |
| `BlockStack.MeltUndoesSpawn` | knowledgestack/Assets/Scripts/Game/GameController.cs:236 | a melt after a push below the cap restores the tower |

## Left out

- I/O is not modelled: `PlayerPrefs`, the server and local catalog loading (`InitializeQuestions`, `LoadQuestionsFromLocal`), mongoose queries and saves, HTTP plumbing, the 500 replies on store failures, and the scripts' file reads, writes and console output.
- Randomness is not modelled as a distribution. Random orders and draws are injected, so no uniformity is claimed.
- Engine.AddQuestionsByDifficulty: requires a difficulty of at least 1. A lower one would throw a missing-key exception in the source, and the quota loop only passes 1..4.
- Engine.GetQuestionsForLevel: the exact counts, the reset condition and distinctness are stated only for catalogs with pairwise distinct IDs. After a reset, distinctness is stated for each part: the opening is exactly the unseen questions, each once, and the top-up has distinct IDs. Nothing is claimed about the list as a whole, because the source does not keep distinctness across the two parts (`Engine.RepeatAfterReset`). The tier-by-tier quota layout as fixed slices is stated only when every tier has its count unseen; in every case the list opens with four recorded tier turns (each a tier fill with its cascade), but what follows them is stated only through the first pass's size and freshness, not as a pool fill.
- Answers.GetShuffledAnswers: the first slot and the identity case are the only positions stated. The full order depends on every draw and is summarised by the permutation.
- BlockStack.GetRandomNextColor: assumes that the injected draws eventually differ from the last colour. The retry loop ends only with probability one, and a run that never ends is not modelled.
- Animation, geometry, sprites and colours as floats (`AnimateBlockDrop`, the melt lerp, block sizes and positions) are not modelled. A colour is its palette index and a sprite is its index.
- Progress.Login: `userId` is taken as an optional string. JavaScript truthiness of a non-string `userId` (`0`, `false`, a number) is not modelled.
- Progress.Sync: `userId` is taken as a string. Querying with a missing `userId` uses the database driver's query semantics, which are not modelled.
- Progress.Merge: numbers are integers. Truthiness of `NaN` and of other JSON value types is not modelled.
- FixJson.FixJson: each character stands for one byte. The 300-byte tail is the last 300 characters, and lossy UTF-8 decoding is not modelled.
- The timestamps `Date.now()` and `lastLogin` are a parameter, not a clock.
- Concurrency, the Unity event callbacks (`OnQuestionsLoaded`) and the editor tools are not modelled.

=== FILE: answers.dfy ===
/**
  `GetShuffledAnswers`: the correct answer followed by the wrong ones, put in
  random order by a Fisher–Yates pass.

  `Random.Range(i, answers.Count)` at step `i` is injected as `picks[i]`, the
  index the generator returns at that step; the generator promises
  `i <= picks[i] < answers.Count`.
 */
module Answers {
  import opened Questions

  /** The list before shuffling: `answers.Add(q.answer); answers.AddRange(q.wrong)`. */
  function Unshuffled(q: Question): (r: seq<string>)
    ensures |r| == 1 + |q.wrong| && r[0] == q.answer && r[1..] == q.wrong
  {
    [q.answer] + q.wrong
  }

  /** The indices a run of `Random.Range(i, n)` for `i = 0 .. n-1` can return. */
  predicate ValidPicks(picks: seq<int>, n: int)
  {
    |picks| == n && forall i :: 0 <= i < n ==> i <= picks[i] < n
  }

  /** Exchanging two entries keeps every entry, as many times as before. */
  lemma SwapPermutes<T>(s: seq<T>, i: int, j: int)
    requires 0 <= i < |s| && 0 <= j < |s|
    ensures multiset(s[i := s[j]][j := s[i]]) == multiset(s)
  {
  }

  /**
    `GetShuffledAnswers`: the swap loop over the answer list. The result holds
    the same answers, each as many times, as the question has; the first slot
    holds the answer the first draw picked; and a generator that always
    returns its lower bound leaves the list as it was built.
   */
  method GetShuffledAnswers(q: Question, picks: seq<int>) returns (answers: seq<string>)
    requires ValidPicks(picks, 1 + |q.wrong|)
    ensures |answers| == 1 + |q.wrong|
    ensures multiset(answers) == multiset{q.answer} + multiset(q.wrong)
    ensures answers[0] == Unshuffled(q)[picks[0]]
    ensures (forall k :: 0 <= k < |picks| ==> picks[k] == k) ==> answers == Unshuffled(q)
  {
    answers := [q.answer] + q.wrong;
    ghost var original := answers;
    var i := 0;
    while i < |answers|
      invariant 0 <= i <= |answers| == |original|
      invariant multiset(answers) == multiset(original)
      invariant i > 0 ==> answers[0] == original[picks[0]]
      invariant i == 0 ==> answers == original
      invariant (forall k :: 0 <= k < |picks| ==> picks[k] == k) ==> answers == original
    {
      SwapPermutes(answers, i, picks[i]);
      var temp := answers[i];
      var randomIndex := picks[i];
      answers := answers[i := answers[randomIndex]];
      answers := answers[randomIndex := temp];
      i := i + 1;
    }
    assert original == [q.answer] + q.wrong;
  }
}

=== FILE: blockstack.dfy ===
/**
  The block tower of the game screen: a correct answer drops a block onto the
  stack (`SpawnBlock`), a wrong one sends an acid blob at the top block
  (`SpawnAcidEffect`) that removes it when the melt finishes
  (`AnimateAcidDrop`), and a coloured block gets a palette colour different
  from the previous one (`GetRandomNextColor`).

  Only the stack bookkeeping and the colour choice are modelled. Each value of
  `Random.Range` is an injected draw.
 */
module BlockStack {
  import opened Wrappers

  /** The most blocks the tower holds. */
  const MaxHeight := 10

  /** How a block looks: one of the custom sprites, or a palette colour. */
  datatype Look = Sprite(sprite: int) | Colour(colour: int)

  /** A block and the slot it was dropped into (`"Block_" + stackIndex`). */
  datatype Block = Block(slot: nat, look: Look)

  /** The stack of spawned blocks (top last) and `lastColorIndex`. */
  datatype Board = Board(blocks: seq<Block>, lastColorIndex: int)

  /** The initial board: no blocks, and no colour used yet. */
  const Initial := Board([], -1)

  /** The tower is at most 10 high and each block sits in the slot of its height. */
  predicate Valid(b: Board)
  {
    |b.blocks| <= MaxHeight && forall i :: 0 <= i < |b.blocks| ==> b.blocks[i].slot == i
  }

  // ---------------------------------------------------------------------
  // Colour choice
  // ---------------------------------------------------------------------

  /** Draws `Random.Range(0, paletteSize)` can return. */
  predicate DrawsInRange(draws: seq<int>, paletteSize: int)
  {
    forall i :: 0 <= i < |draws| ==> 0 <= draws[i] < paletteSize
  }

  /**
    The generator is eventually lucky: with more than one colour, some draw
    differs from the last colour. (The retry loop ends only with probability
    one; a run of draws that never does is not modelled.)
   */
  predicate EventuallyDifferent(draws: seq<int>, paletteSize: int, last: int)
  {
    |draws| > 0 && (paletteSize > 1 ==> exists k :: 0 <= k < |draws| && draws[k] != last)
  }

  /**
    `GetRandomNextColor`: draw a colour index and, when the palette has more
    than one colour, draw again as long as it equals the last one. Returns the
    index and how many draws it used.
   */
  method GetRandomNextColor(paletteSize: int, last: int, draws: seq<int>) returns (index: int, used: nat)
    requires paletteSize >= 1
    requires DrawsInRange(draws, paletteSize)
    requires EventuallyDifferent(draws, paletteSize, last)
    ensures 0 <= index < paletteSize
    ensures paletteSize > 1 ==> index != last
    ensures 1 <= used <= |draws| && index == draws[used - 1]
    ensures forall j :: 0 <= j < used - 1 ==> draws[j] == last
    ensures paletteSize == 1 ==> used == 1
    ensures !(0 <= last < paletteSize) ==> used == 1 && index == draws[0]
  {
    index := draws[0];
    used := 1;
    if paletteSize > 1 {
      while index == last
        invariant 1 <= used <= |draws| && index == draws[used - 1]
        invariant forall j :: 0 <= j < used - 1 ==> draws[j] == last
        invariant index == last ==> exists k :: used <= k < |draws| && draws[k] != last
        decreases |draws| - used
      {
        index := draws[used];
        used := used + 1;
      }
    }
  }

  // ---------------------------------------------------------------------
  // The stack
  // ---------------------------------------------------------------------

  /**
    `SpawnBlock`: nothing at height 10; otherwise one block is pushed into the
    slot of the current height. With custom sprites it takes the drawn sprite;
    without, it takes the next colour, which becomes `lastColorIndex`.
   */
  method SpawnBlock(b: Board, spriteCount: nat, spriteDraw: int, paletteSize: int, colourDraws: seq<int>)
    returns (r: Board)
    requires spriteCount > 0 ==> 0 <= spriteDraw < spriteCount
    requires spriteCount == 0 ==> paletteSize >= 1 && DrawsInRange(colourDraws, paletteSize)
    requires spriteCount == 0 ==> EventuallyDifferent(colourDraws, paletteSize, b.lastColorIndex)
    ensures |b.blocks| >= MaxHeight ==> r == b
    ensures |b.blocks| < MaxHeight ==>
      && |r.blocks| == |b.blocks| + 1
      && r.blocks[..|b.blocks|] == b.blocks
      && r.blocks[|b.blocks|].slot == |b.blocks|
    ensures Valid(b) ==> Valid(r)
    ensures spriteCount > 0 ==> r.lastColorIndex == b.lastColorIndex
    ensures |b.blocks| < MaxHeight && spriteCount > 0 ==> r.blocks[|b.blocks|].look == Sprite(spriteDraw)
    ensures |b.blocks| < MaxHeight && spriteCount == 0 ==>
      && r.blocks[|b.blocks|].look == Colour(r.lastColorIndex)
      && 0 <= r.lastColorIndex < paletteSize
      && (paletteSize > 1 ==> r.lastColorIndex != b.lastColorIndex)
      && (!(0 <= b.lastColorIndex < paletteSize) ==> r.lastColorIndex == colourDraws[0])
  {
    var stackIndex := |b.blocks|;
    if stackIndex >= MaxHeight {
      return b;
    }
    if spriteCount > 0 {
      r := Board(b.blocks + [Block(stackIndex, Sprite(spriteDraw))], b.lastColorIndex);
    } else {
      var index, _ := GetRandomNextColor(paletteSize, b.lastColorIndex, colourDraws);
      r := Board(b.blocks + [Block(stackIndex, Colour(index))], index);
    }
  }

  /**
    The first block of a game, spawned on the initial board: it sits in slot
    0 and, when coloured, takes the very first draw, since the initial last
    colour -1 is no palette index.
   */
  method FirstSpawn(spriteCount: nat, spriteDraw: int, paletteSize: int, colourDraws: seq<int>) returns (r: Board)
    requires spriteCount > 0 ==> 0 <= spriteDraw < spriteCount
    requires spriteCount == 0 ==> paletteSize >= 1 && DrawsInRange(colourDraws, paletteSize)
    requires spriteCount == 0 ==> EventuallyDifferent(colourDraws, paletteSize, Initial.lastColorIndex)
    ensures Valid(r) && |r.blocks| == 1 && r.blocks[0].slot == 0
    ensures spriteCount > 0 ==> r.blocks[0].look == Sprite(spriteDraw) && r.lastColorIndex == -1
    ensures spriteCount == 0 ==> r.blocks[0].look == Colour(colourDraws[0]) && r.lastColorIndex == colourDraws[0]
  {
    r := SpawnBlock(Initial, spriteCount, spriteDraw, paletteSize, colourDraws);
  }

  /** `SpawnAcidEffect`: the block the acid aims at, the top one; nothing on an empty tower. */
  function AcidTarget(b: Board): (target: Option<Block>)
    ensures target.None? <==> |b.blocks| == 0
    ensures target.Some? ==> target.value == b.blocks[|b.blocks| - 1]
    ensures Valid(b) && target.Some? ==> target.value.slot == |b.blocks| - 1
  {
    if |b.blocks| == 0 then None else Some(b.blocks[|b.blocks| - 1])
  }

  /** The end of `AnimateAcidDrop`: the top block is popped, if there is one. */
  function CompleteMelt(b: Board): (r: Board)
    ensures |b.blocks| == 0 ==> r == b
    ensures |b.blocks| > 0 ==> r.blocks == b.blocks[..|b.blocks| - 1]
    ensures r.lastColorIndex == b.lastColorIndex
    ensures Valid(b) ==> Valid(r)
  {
    if |b.blocks| > 0 then b.(blocks := b.blocks[..|b.blocks| - 1]) else b
  }

  /** A melt after a drop below the cap takes the tower back to where it was. */
  lemma {:induction false} MeltUndoesSpawn(b: Board, r: Board)
    requires |b.blocks| < MaxHeight
    requires |r.blocks| == |b.blocks| + 1 && r.blocks[..|b.blocks|] == b.blocks
    ensures CompleteMelt(r).blocks == b.blocks
  {
  }
}

=== FILE: catalogs.dfy ===
/**
  The question catalog of the question manager: one list of questions per
  difficulty tier 1..4 (the dictionary `questionsByDifficulty`, created with
  exactly these four keys), and the loader that sorts incoming questions into
  their buckets.
 */
module Catalogs {
  import opened Questions

  /** The four difficulty buckets, easiest first. */
  datatype Catalog = Catalog(
    tier1: seq<Question>,
    tier2: seq<Question>,
    tier3: seq<Question>,
    tier4: seq<Question>)
  {
    /** The bucket of difficulty `d`, the dictionary lookup `questionsByDifficulty[d]`. */
    function Bucket(d: int): seq<Question>
      requires 1 <= d <= 4
    {
      if d == 1 then tier1 else if d == 2 then tier2 else if d == 3 then tier3 else tier4
    }
  }

  /** The catalog right after start-up: four empty buckets. */
  const EmptyCatalog := Catalog([], [], [], [])

  /** Buckets `d`..4 laid end to end, easiest first. */
  function Tiers(c: Catalog, d: int): seq<Question>
    requires 1 <= d <= 5
    decreases 5 - d
  {
    if d == 5 then [] else c.Bucket(d) + Tiers(c, d + 1)
  }

  /** Every question of the catalog, bucket 1 first (the iteration of `Values` in key order). */
  function All(c: Catalog): seq<Question>
  {
    Tiers(c, 1)
  }

  /** The catalog is well sorted: each bucket holds only questions of its own difficulty. */
  predicate Sorted(c: Catalog)
  {
    forall d, q :: 1 <= d <= 4 && q in c.Bucket(d) ==> q.difficulty == d
  }

  /** The questions of `qs` with difficulty `d`, in order. */
  function OfDifficulty(qs: seq<Question>, d: int): (r: seq<Question>)
    ensures |r| <= |qs|
    ensures forall q :: q in r <==> q in qs && q.difficulty == d
  {
    if qs == [] then []
    else (if qs[0].difficulty == d then [qs[0]] else []) + OfDifficulty(qs[1..], d)
  }

  /** The questions of `qs` whose difficulty is not a dictionary key. */
  function OutOfRange(qs: seq<Question>): (r: seq<Question>)
    ensures forall q :: q in r <==> q in qs && !(1 <= q.difficulty <= 4)
  {
    if qs == [] then []
    else (if 1 <= qs[0].difficulty <= 4 then [] else [qs[0]]) + OutOfRange(qs[1..])
  }

  /**
    `ProcessLoadedQuestions`: every question whose difficulty is a key of the
    dictionary is appended to the bucket of that difficulty; the others are
    dropped without a word.
   */
  function ProcessLoadedQuestions(c: Catalog, qs: seq<Question>): (r: Catalog)
    ensures forall d :: 1 <= d <= 4 ==>
      |c.Bucket(d)| <= |r.Bucket(d)| && r.Bucket(d)[..|c.Bucket(d)|] == c.Bucket(d)
    ensures forall q :: q in qs && 1 <= q.difficulty <= 4 ==> q in r.Bucket(q.difficulty)
    ensures forall d, q :: 1 <= d <= 4 && q in r.Bucket(d) ==>
      q in c.Bucket(d) || (q in qs && q.difficulty == d)
  {
    Catalog(
      c.tier1 + OfDifficulty(qs, 1),
      c.tier2 + OfDifficulty(qs, 2),
      c.tier3 + OfDifficulty(qs, 3),
      c.tier4 + OfDifficulty(qs, 4))
  }

  /** Loading keeps every bucket pure: questions land only in the bucket of their difficulty. */
  lemma ProcessLoadedQuestionsKeepsSorted(c: Catalog, qs: seq<Question>)
    requires Sorted(c)
    ensures Sorted(ProcessLoadedQuestions(c, qs))
  {
  }

  /** A question is in the loaded catalog exactly when it was there before or arrived with a valid difficulty. */
  lemma ProcessLoadedQuestionsMembers(c: Catalog, qs: seq<Question>, q: Question)
    ensures q in All(ProcessLoadedQuestions(c, qs)) <==>
      q in All(c) || (q in qs && 1 <= q.difficulty <= 4)
  {
    var r := ProcessLoadedQuestions(c, qs);
    AllBuckets(c);
    AllBuckets(r);
    if q in qs && 1 <= q.difficulty <= 4 {
      assert q in r.Bucket(q.difficulty);
    }
  }

  lemma AllBuckets(c: Catalog)
    ensures All(c) == c.tier1 + c.tier2 + c.tier3 + c.tier4
  {
    assert Tiers(c, 4) == c.tier4 + [];
  }

  /** Every question lands in exactly one of the four buckets or in none. */
  lemma {:induction false} SplitByDifficulty(qs: seq<Question>)
    ensures |OfDifficulty(qs, 1)| + |OfDifficulty(qs, 2)| + |OfDifficulty(qs, 3)|
            + |OfDifficulty(qs, 4)| + |OutOfRange(qs)| == |qs|
  {
    if qs != [] {
      SplitByDifficulty(qs[1..]);
    }
  }

  /**
    Loading grows the catalog by exactly the questions with a valid difficulty:
    the others are the only ones dropped.
   */
  lemma ProcessLoadedQuestionsSize(c: Catalog, qs: seq<Question>)
    ensures |All(ProcessLoadedQuestions(c, qs))| == |All(c)| + |qs| - |OutOfRange(qs)|
  {
    AllBuckets(c);
    AllBuckets(ProcessLoadedQuestions(c, qs));
    SplitByDifficulty(qs);
  }

  /**
    The first load, into the catalog `InitializeQuestions` starts from: the
    catalog comes out sorted and holds exactly the loaded questions whose
    difficulty is in 1..4.
   */
  lemma LoadIntoEmpty(qs: seq<Question>)
    ensures Sorted(ProcessLoadedQuestions(EmptyCatalog, qs))
    ensures |All(ProcessLoadedQuestions(EmptyCatalog, qs))| == |qs| - |OutOfRange(qs)|
    ensures forall q :: q in All(ProcessLoadedQuestions(EmptyCatalog, qs)) <==> q in qs && 1 <= q.difficulty <= 4
  {
    AllBuckets(EmptyCatalog);
    ProcessLoadedQuestionsKeepsSorted(EmptyCatalog, qs);
    ProcessLoadedQuestionsSize(EmptyCatalog, qs);
    forall q
      ensures q in All(ProcessLoadedQuestions(EmptyCatalog, qs)) <==> q in qs && 1 <= q.difficulty <= 4
    {
      ProcessLoadedQuestionsMembers(EmptyCatalog, qs, q);
    }
  }
}

=== FILE: distribution.dfy ===
/**
  The distribution policy: how many questions of each difficulty tier a level
  asks for (`GetDistributionForLevel`).
 */
module Distribution {

  /** Required question count per difficulty tier. */
  datatype Quota = Quota(tier1: nat, tier2: nat, tier3: nat, tier4: nat)
  {
    function Sum(): nat
    {
      tier1 + tier2 + tier3 + tier4
    }

    /** The counts of tiers 1..d-1, the part of the quota the loop has asked for before tier `d`. */
    function SumBelow(d: int): nat
      requires 1 <= d <= 5
    {
      (if d > 1 then tier1 else 0) + (if d > 2 then tier2 else 0)
      + (if d > 3 then tier3 else 0) + (if d > 4 then tier4 else 0)
    }

    /** The count for tier `d`, the dictionary lookup `distribution[d]`. */
    function For(d: int): nat
      requires 1 <= d <= 4
    {
      if d == 1 then tier1 else if d == 2 then tier2 else if d == 3 then tier3 else tier4
    }
  }

  /** The four rows of the table, by level bracket. */
  const EarlyRow := Quota(5, 2, 2, 1)   // levels up to 20
  const MiddleRow := Quota(3, 3, 2, 2)  // levels 21..40
  const LateRow := Quota(1, 2, 3, 4)    // levels 41..80
  const FinalRow := Quota(0, 1, 4, 5)   // levels above 80

  /** Questions shown per level. */
  const QuestionsPerLevel := 10

  /**
    `GetDistributionForLevel`: the quota row of the bracket the level falls in.
    Levels below 1 are not rejected; they fall in the first bracket.
   */
  function GetDistributionForLevel(level: int): (q: Quota)
    ensures q.Sum() == QuestionsPerLevel
    ensures q in {EarlyRow, MiddleRow, LateRow, FinalRow}
    ensures level <= 20 <==> q == EarlyRow
    ensures 20 < level <= 40 <==> q == MiddleRow
    ensures 40 < level <= 80 <==> q == LateRow
    ensures level > 80 <==> q == FinalRow
  {
    if level <= 20 then EarlyRow
    else if level <= 40 then MiddleRow
    else if level <= 80 then LateRow
    else FinalRow
  }

  /**
    Difficulty ramps up with the level: a higher level never asks for more
    easy questions and never for fewer of the hardest tier.
   */
  lemma DistributionRampsUp(lo: int, hi: int)
    requires lo <= hi
    ensures GetDistributionForLevel(hi).tier1 <= GetDistributionForLevel(lo).tier1
    ensures GetDistributionForLevel(lo).tier3 <= GetDistributionForLevel(hi).tier3
    ensures GetDistributionForLevel(lo).tier4 <= GetDistributionForLevel(hi).tier4
  {
  }
}

=== FILE: engine.dfy ===
/**
  The question distribution engine of the question manager: the per-tier fill
  with its cascade to harder tiers (`AddQuestionsByDifficulty`), the pool-wide
  fill (`AddQuestionsAny`), and the level request that runs them in order and
  resets the served history when the pool runs dry (`GetQuestionsForLevel`).

  The served set is threaded through explicitly. The random order that
  `OrderBy(x => Random.value)` gives a candidate list is an injected
  `Shuffle`: any function that returns, for each list, a rearrangement of
  that list.
 */
module Engine {
  import opened Questions
  import opened Catalogs
  import opened Distribution
  import opened ServedHistory

  function Min(a: int, b: int): int
  {
    if a <= b then a else b
  }

  /** Taking `a` first and then at most `k - a` more of `x` is taking at most `k` of `a + x`. */
  lemma {:induction false} MinAdd(a: int, k: int, x: int, b: int)
    requires a < k && b == Min(k - a, x)
    ensures a + b == Min(k, a + x)
  {
  }

  // ---------------------------------------------------------------------
  // The injected random order
  // ---------------------------------------------------------------------

  /** For each candidate list, that list in the order `OrderBy(x => Random.value)` puts it. */
  type Shuffle = seq<Question> -> seq<Question>

  /** The shuffle rearranges every list it is given: same questions, same multiplicities. */
  ghost predicate ValidShuffle(shuffle: Shuffle)
  {
    forall s {:trigger shuffle(s)} :: multiset(shuffle(s)) == multiset(s)
  }

  /** The candidate list in the shuffled order. */
  function Shuffled(shuffle: Shuffle, s: seq<Question>): (r: seq<Question>)
    requires ValidShuffle(shuffle)
    ensures multiset(r) == multiset(s)
    ensures |r| == |s|
    ensures forall q :: q in r <==> q in s
    ensures DistinctIds(s) ==> DistinctIds(r)
  {
    var r := shuffle(s);
    Rearranged(s, r);
    r
  }

  // ---------------------------------------------------------------------
  // Marking
  // ---------------------------------------------------------------------

  /** `MarkAsServed` applied to each question of `qs` in turn. */
  function MarkEach(served: set<Int32>, qs: seq<Question>): (r: set<Int32>)
    ensures r == served + Ids(qs)
    decreases |qs|
  {
    if qs == [] then served
    else
      IdsAppend([qs[0]], qs[1..]);
      assert [qs[0]] + qs[1..] == qs;
      MarkEach(MarkAsServed(served, qs[0].id), qs[1..])
  }

  // ---------------------------------------------------------------------
  // What a fill appends
  // ---------------------------------------------------------------------

  /** The questions a fill appends to the level's list (`targetList`), and the served set afterwards. */
  datatype Pick = Pick(questions: seq<Question>, served: set<Int32>)

  /**
    Every question of `p` was unseen under `served`, and the served set grew
    by exactly their IDs.
   */
  predicate FreshPick(p: Pick, served: set<Int32>)
  {
    && (forall q :: q in p.questions ==> q.id !in served)
    && p.served == served + Ids(p.questions)
  }

  /** Two fills in a row are one fill that appends both lists. */
  lemma {:induction false} FreshPickThen(p1: Pick, p2: Pick, served: set<Int32>)
    requires FreshPick(p1, served) && FreshPick(p2, p1.served)
    ensures FreshPick(Pick(p1.questions + p2.questions, p2.served), served)
  {
    IdsAppend(p1.questions, p2.questions);
  }

  /** A fresh fill after a fill with distinct IDs keeps the whole list's IDs distinct. */
  lemma {:induction false} FreshPickDistinct(p1: Pick, p2: Pick, served: set<Int32>)
    requires FreshPick(p1, served) && DistinctIds(p1.questions)
    requires FreshPick(p2, p1.served) && DistinctIds(p2.questions)
    ensures DistinctIds(p1.questions + p2.questions)
  {
    assert Ids(p1.questions) !! Ids(p2.questions) by {
      forall x | x in Ids(p2.questions) ensures x !in Ids(p1.questions) {
        var q :| q in p2.questions && q.id == x;
      }
    }
    DistinctIdsAppend(p1.questions, p2.questions);
  }

  lemma {:induction false} CardDifference<T>(a: set<T>, b: set<T>)
    requires b <= a
    ensures |a - b| == |a| - |b|
  {
    assert a == (a - b) + b;
  }

  /** A fresh pick of distinct catalog questions uses up exactly as many unseen questions as it holds. */
  lemma {:induction false} FreshPickUnseen(all: seq<Question>, p: Pick, served: set<Int32>)
    requires DistinctIds(all) && DistinctIds(p.questions)
    requires FreshPick(p, served)
    requires forall q :: q in p.questions ==> q in all
    ensures |Unseen(all, p.served)| == |Unseen(all, served)| - |p.questions|
  {
    var before := Ids(all) - served;
    assert |Unseen(all, served)| == |before| by {
      UnseenCount(all, served);
    }
    assert |Unseen(all, p.served)| == |before - Ids(p.questions)| by {
      UnseenCount(all, p.served);
      assert Ids(all) - p.served == before - Ids(p.questions);
    }
    assert |before - Ids(p.questions)| == |before| - |p.questions| by {
      assert Ids(p.questions) <= before by {
        forall x | x in Ids(p.questions) ensures x in before {
          var q :| q in p.questions && q.id == x;
        }
      }
      CardDifference(before, Ids(p.questions));
    }
  }

  /** Appending `qs` and marking each of them, as every fill does. */
  function Append(served: set<Int32>, qs: seq<Question>): (r: Pick)
    requires forall q :: q in qs ==> q.id !in served
    ensures FreshPick(r, served) && r.questions == qs
  {
    Pick(qs, MarkEach(served, qs))
  }

  /** A fill with nothing to do. */
  function Nothing(served: set<Int32>): (r: Pick)
    ensures FreshPick(r, served) && r.questions == []
  {
    assert Ids([]) == {};
    Pick([], served)
  }

  // ---------------------------------------------------------------------
  // Tier fill: AddQuestionsByDifficulty
  // ---------------------------------------------------------------------

  /** An out-of-range tier above 4 is read as tier 4. */
  function Cap(difficulty: int): int
  {
    if difficulty > 4 then 4 else difficulty
  }

  /** The unseen questions of tier `d`. */
  function TierUnseen(c: Catalog, served: set<Int32>, d: int): seq<Question>
    requires 1 <= d <= 4
  {
    Unseen(c.Bucket(d), served)
  }

  lemma {:induction false} TiersAppend(c: Catalog, d: int)
    requires 1 <= d <= 4
    ensures Tiers(c, d) == c.Bucket(d) + Tiers(c, d + 1)
  {
  }

  /** A question of tiers `d`..4 is a question of the catalog. */
  lemma {:induction false} TiersInAll(c: Catalog, d: int, q: Question)
    requires 1 <= d <= 5
    requires q in Tiers(c, d)
    ensures q in All(c)
    decreases d
  {
    if d > 1 {
      TiersAppend(c, d - 1);
      TiersInAll(c, d - 1, q);
    }
  }

  /** Catalog IDs distinct implies the IDs of each suffix of tiers distinct, and disjoint from the earlier bucket. */
  lemma {:induction false} TiersDistinct(c: Catalog, d: int)
    requires 1 <= d <= 5
    requires DistinctIds(All(c))
    ensures DistinctIds(Tiers(c, d))
    ensures d <= 4 ==> DistinctIds(c.Bucket(d)) && Ids(c.Bucket(d)) !! Ids(Tiers(c, d + 1))
    decreases d
  {
    if d > 1 {
      TiersDistinct(c, d - 1);
      DistinctIdsAppend(c.Bucket(d - 1), Tiers(c, d));
    }
    if d <= 4 {
      DistinctIdsAppend(c.Bucket(d), Tiers(c, d + 1));
    }
  }

  /** The unseen questions of tiers `d`..4 are those of tier `d` and those of tiers `d+1`..4. */
  lemma {:induction false} TierSplitCount(c: Catalog, served: set<Int32>, d: int)
    requires 1 <= d <= 4
    ensures |Unseen(Tiers(c, d), served)| == |TierUnseen(c, served, d)| + |Unseen(Tiers(c, d + 1), served)|
  {
    TiersAppend(c, d);
    UnseenAppend(c.Bucket(d), Tiers(c, d + 1), served);
  }

  /** Marking questions of tier `d` leaves what tiers `d+1`..4 have unseen as it was. */
  lemma {:induction false} LaterTiersUnaffected(c: Catalog, served: set<Int32>, d: int, taken: seq<Question>)
    requires 1 <= d <= 4
    requires DistinctIds(All(c))
    requires forall q :: q in taken ==> q in c.Bucket(d)
    ensures Unseen(Tiers(c, d + 1), served + Ids(taken)) == Unseen(Tiers(c, d + 1), served)
  {
    TiersDistinct(c, d);
    assert Ids(taken) <= Ids(c.Bucket(d)) by {
      forall x | x in Ids(taken) ensures x in Ids(c.Bucket(d)) {
        var q :| q in taken && q.id == x;
      }
    }
    UnseenIgnoresForeignIds(Tiers(c, d + 1), served, Ids(taken));
  }

  /**
    The cascade step: all of tier `d`'s unseen questions, then what tiers
    `d+1`..4 give for the shortfall, are distinct and as many as tiers `d`..4
    can give.
   */
  lemma {:induction false} CascadeFacts(c: Catalog, served: set<Int32>, d: int, taken: Pick, rest: Pick, count: int)
    requires 1 <= d < 4
    requires DistinctIds(All(c))
    requires FreshPick(taken, served) && DistinctIds(taken.questions)
    requires FreshPick(rest, taken.served) && DistinctIds(rest.questions)
    requires forall q :: q in taken.questions ==> q in c.Bucket(d)
    requires |taken.questions| == |TierUnseen(c, served, d)| < count
    requires |rest.questions| == Min(count - |taken.questions|, |Unseen(Tiers(c, d + 1), taken.served)|)
    ensures DistinctIds(taken.questions + rest.questions)
    ensures |taken.questions| + |rest.questions| == Min(count, |Unseen(Tiers(c, d), served)|)
  {
    FreshPickDistinct(taken, rest, served);
    LaterTiersUnaffected(c, served, d, taken.questions);
    TierSplitCount(c, served, d);
    MinAdd(|taken.questions|, count, |Unseen(Tiers(c, d + 1), served)|, |rest.questions|);
  }

  /** With distinct catalog IDs, the shuffled unseen questions of a tier have distinct IDs. */
  lemma {:induction false} CandidatesDistinct(c: Catalog, shuffle: Shuffle, served: set<Int32>, d: int)
    requires ValidShuffle(shuffle)
    requires 1 <= d <= 4
    requires DistinctIds(All(c))
    ensures DistinctIds(Shuffled(shuffle, TierUnseen(c, served, d)))
  {
    TiersDistinct(c, d);
    DistinctIdsUnseen(c.Bucket(d), served);
  }

  /**
    What a tier fill promises when asked for `count > 0` questions from tier
    `d`: a fresh pick of at most `count` questions of tiers `d`..4. When tier
    `d` has enough unseen questions, exactly `count` of them. When it has
    not, every one of them first, in some order, and then, below tier 4, the
    questions and served set of a tier fill of tier `d+1` for the shortfall,
    one that starts from the served set with tier `d`'s questions marked;
    tier 4 stops after its own. With
    distinct catalog IDs the questions are distinct, as many as asked for or
    as tiers `d`..4 have unseen.
   */
  ghost predicate TierFill(c: Catalog, served: set<Int32>, d: int, count: int, r: Pick)
    requires 1 <= d <= 4
    decreases 4 - d, 1
  {
    var unseen := TierUnseen(c, served, d);
    && FreshPick(r, served)
    && |r.questions| <= count
    && (forall q :: q in r.questions ==> q in Tiers(c, d))
    && (count <= |unseen| ==>
          && |r.questions| == count
          && multiset(r.questions) <= multiset(unseen)
          && (forall q :: q in r.questions ==> q in unseen))
    && (count > |unseen| ==>
          && |unseen| <= |r.questions|
          && multiset(r.questions[..|unseen|]) == multiset(unseen)
          && (d < 4 ==>
                exists next: set<Int32>, left: int, rest: Pick {:trigger NextTierFill(c, next, d, left, rest)} ::
                  && next == served + Ids(unseen)
                  && left == count - |unseen|
                  && r == Pick(r.questions[..|unseen|] + rest.questions, rest.served)
                  && NextTierFill(c, next, d, left, rest))
          && (d == 4 ==> |r.questions| == |unseen|))
    && (DistinctIds(All(c)) ==>
          DistinctIds(r.questions) && |r.questions| == Min(count, |Unseen(Tiers(c, d), served)|))
  }

  /**
    `AddQuestionsByDifficulty`: nothing for a count of zero or less;
    otherwise take `count` unseen questions of the tier in shuffled order
    when it has that many, and hand the shortfall on (`Spill`) when it has not.
   */
  method AddQuestionsByDifficulty(c: Catalog, shuffle: Shuffle, served: set<Int32>, difficulty: int, count: int)
    returns (r: Pick)
    requires ValidShuffle(shuffle)
    requires 1 <= difficulty
    ensures count <= 0 ==> r == Pick([], served)
    ensures count > 0 ==> TierFill(c, served, Cap(difficulty), count, r)
    decreases 4 - Cap(difficulty), 1
  {
    if count <= 0 {
      return Nothing(served);
    }
    var d := Cap(difficulty);
    var candidates := Shuffled(shuffle, TierUnseen(c, served, d));
    if DistinctIds(All(c)) {
      CandidatesDistinct(c, shuffle, served, d);
    }
    if |candidates| >= count {
      r := Append(served, candidates[..count]);
      EnoughInTier(c, served, d, candidates, count);
    } else if d < 4 {
      r := Spill(c, shuffle, served, d, candidates, count);
    } else {
      r := Append(served, candidates);
      LastTierFill(c, served, d, candidates, count);
    }
  }

  /**
    The shortfall branch of `AddQuestionsByDifficulty` below tier 4: every
    unseen question of tier `d` (`candidates`, shuffled), then the rest asked
    of tier `d+1`.
   */
  method Spill(c: Catalog, shuffle: Shuffle, served: set<Int32>, d: int, candidates: seq<Question>, count: int)
    returns (r: Pick)
    requires ValidShuffle(shuffle)
    requires 1 <= d < 4
    requires multiset(candidates) == multiset(TierUnseen(c, served, d))
    requires forall q :: q in candidates <==> q in TierUnseen(c, served, d)
    requires |candidates| == |TierUnseen(c, served, d)| < count
    requires DistinctIds(All(c)) ==> DistinctIds(candidates)
    ensures TierFill(c, served, d, count, r)
    decreases 4 - d, 0
  {
    var taken := Append(served, candidates);
    var rest := AddQuestionsByDifficulty(c, shuffle, taken.served, d + 1, count - |candidates|);
    r := Pick(candidates + rest.questions, rest.served);
    SpillFill(c, served, d, candidates, rest, count);
  }

  /** A tier with at least `count` unseen questions fills the request from its shuffled unseen questions alone. */
  lemma {:induction false} EnoughInTier(c: Catalog, served: set<Int32>, d: int, candidates: seq<Question>, count: int)
    requires 1 <= d <= 4
    requires multiset(candidates) == multiset(TierUnseen(c, served, d))
    requires forall q :: q in candidates <==> q in TierUnseen(c, served, d)
    requires |candidates| == |TierUnseen(c, served, d)| >= count > 0
    requires DistinctIds(All(c)) ==> DistinctIds(candidates)
    ensures TierFill(c, served, d, count, Append(served, candidates[..count]))
  {
    var r := Append(served, candidates[..count]);
    TiersAppend(c, d);
    assert candidates == candidates[..count] + candidates[count..];
    assert forall q :: q in r.questions ==> q in TierUnseen(c, served, d) by {
      forall q | q in r.questions ensures q in TierUnseen(c, served, d) {
        assert q in candidates;
      }
    }
    if DistinctIds(All(c)) {
      DistinctIdsPrefix(candidates, count);
      TierSplitCount(c, served, d);
      assert |r.questions| == count == Min(count, |Unseen(Tiers(c, d), served)|);
    }
  }

  /** `rest` is a tier fill of the tier after `d`, asked for `left` questions from the served set `next`. */
  ghost predicate NextTierFill(c: Catalog, next: set<Int32>, d: int, left: int, rest: Pick)
    requires 1 <= d < 4
    decreases 4 - d, 0
  {
    TierFill(c, next, Cap(d + 1), left, rest)
  }

  /** Tier `d`'s unseen questions followed by a fill of tiers `d+1`..4 for the shortfall fill tiers `d`..4. */
  lemma {:induction false} SpillFill(c: Catalog, served: set<Int32>, d: int, candidates: seq<Question>, rest: Pick, count: int)
    requires 1 <= d < 4
    requires multiset(candidates) == multiset(TierUnseen(c, served, d))
    requires forall q :: q in candidates <==> q in TierUnseen(c, served, d)
    requires |candidates| == |TierUnseen(c, served, d)| < count
    requires DistinctIds(All(c)) ==> DistinctIds(candidates)
    requires TierFill(c, Append(served, candidates).served, Cap(d + 1), count - |candidates|, rest)
    ensures TierFill(c, served, d, count, Pick(candidates + rest.questions, rest.served))
  {
    assert Cap(d + 1) == d + 1;
    SpillOpening(c, served, d, candidates, rest, count);
    SpillParts(c, served, d, candidates, rest, count);
    SpillCascade(c, served, d, candidates, rest, count);
  }

  /** The same, given the parts `SpillParts` establishes: what is left is the cascade into tier `d+1`. */
  lemma {:induction false} SpillCascade(c: Catalog, served: set<Int32>, d: int, candidates: seq<Question>, rest: Pick, count: int)
    requires 1 <= d < 4
    requires forall q :: q in candidates <==> q in TierUnseen(c, served, d)
    requires |candidates| == |TierUnseen(c, served, d)| < count
    requires TierFill(c, Append(served, candidates).served, Cap(d + 1), count - |candidates|, rest)
    requires Append(served, candidates).served == served + Ids(TierUnseen(c, served, d))
    requires (candidates + rest.questions)[..|TierUnseen(c, served, d)|] == candidates
    requires multiset((candidates + rest.questions)[..|TierUnseen(c, served, d)|]) == multiset(TierUnseen(c, served, d))
    requires |candidates + rest.questions| <= count
    requires FreshPick(Pick(candidates + rest.questions, rest.served), served)
    requires forall q :: q in candidates + rest.questions ==> q in Tiers(c, d)
    requires DistinctIds(All(c)) ==>
               DistinctIds(candidates + rest.questions)
               && |candidates + rest.questions| == Min(count, |Unseen(Tiers(c, d), served)|)
    ensures TierFill(c, served, d, count, Pick(candidates + rest.questions, rest.served))
  {
    assert NextTierFill(c, Append(served, candidates).served, d, count - |candidates|, rest);
  }

  /** The parts of a spill other than its cascade: a fresh pick of tiers `d`..4, distinct and as long as tiers `d`..4 allow. */
  lemma {:induction false} SpillParts(c: Catalog, served: set<Int32>, d: int, candidates: seq<Question>, rest: Pick, count: int)
    requires 1 <= d < 4
    requires forall q :: q in candidates <==> q in TierUnseen(c, served, d)
    requires |candidates| == |TierUnseen(c, served, d)| < count
    requires DistinctIds(All(c)) ==> DistinctIds(candidates)
    requires FreshPick(rest, Append(served, candidates).served)
    requires forall q :: q in rest.questions ==> q in Tiers(c, d + 1)
    requires DistinctIds(All(c)) ==>
               DistinctIds(rest.questions)
               && |rest.questions| == Min(count - |candidates|, |Unseen(Tiers(c, d + 1), Append(served, candidates).served)|)
    ensures FreshPick(Pick(candidates + rest.questions, rest.served), served)
    ensures forall q :: q in candidates + rest.questions ==> q in Tiers(c, d)
    ensures DistinctIds(All(c)) ==>
              DistinctIds(candidates + rest.questions)
              && |candidates + rest.questions| == Min(count, |Unseen(Tiers(c, d), served)|)
  {
    var taken := Append(served, candidates);
    FreshPickThen(taken, rest, served);
    SpillTiers(c, served, d, candidates, rest.questions);
    if DistinctIds(All(c)) {
      SpillDistinct(c, served, d, candidates, rest, count);
    }
  }

  /** Tier `d`'s unseen questions followed by questions of tiers `d+1`..4 are questions of tiers `d`..4. */
  lemma {:induction false} SpillTiers(c: Catalog, served: set<Int32>, d: int, candidates: seq<Question>, more: seq<Question>)
    requires 1 <= d < 4
    requires forall q :: q in candidates <==> q in TierUnseen(c, served, d)
    requires forall q :: q in more ==> q in Tiers(c, d + 1)
    ensures forall q :: q in candidates + more ==> q in Tiers(c, d)
  {
    TiersAppend(c, d);
    forall q | q in candidates + more ensures q in Tiers(c, d) {
      if q in candidates {
        assert q in c.Bucket(d);
      }
    }
  }

  /** With distinct catalog IDs, a spill is distinct and as long as tiers `d`..4 allow. */
  lemma {:induction false} SpillDistinct(c: Catalog, served: set<Int32>, d: int, candidates: seq<Question>, rest: Pick, count: int)
    requires 1 <= d < 4
    requires DistinctIds(All(c))
    requires forall q :: q in candidates <==> q in TierUnseen(c, served, d)
    requires |candidates| == |TierUnseen(c, served, d)| < count
    requires DistinctIds(candidates)
    requires FreshPick(rest, Append(served, candidates).served)
    requires DistinctIds(rest.questions)
    requires |rest.questions| == Min(count - |candidates|, |Unseen(Tiers(c, d + 1), Append(served, candidates).served)|)
    ensures DistinctIds(candidates + rest.questions)
    ensures |candidates + rest.questions| == Min(count, |Unseen(Tiers(c, d), served)|)
  {
    var taken := Append(served, candidates);
    forall q | q in taken.questions ensures q in c.Bucket(d) {
      assert q in TierUnseen(c, served, d);
    }
    CascadeFacts(c, served, d, taken, rest, count);
  }

  /** How a spill opens: tier `d`'s candidates, a rearrangement of its unseen questions, whose IDs are the ones it marks served. */
  lemma {:induction false} SpillOpening(c: Catalog, served: set<Int32>, d: int, candidates: seq<Question>, rest: Pick, count: int)
    requires 1 <= d < 4
    requires multiset(candidates) == multiset(TierUnseen(c, served, d))
    requires forall q :: q in candidates <==> q in TierUnseen(c, served, d)
    requires |candidates| == |TierUnseen(c, served, d)|
    requires |rest.questions| <= count - |candidates|
    ensures Append(served, candidates).served == served + Ids(TierUnseen(c, served, d))
    ensures (candidates + rest.questions)[..|TierUnseen(c, served, d)|] == candidates
    ensures multiset((candidates + rest.questions)[..|TierUnseen(c, served, d)|]) == multiset(TierUnseen(c, served, d))
    ensures |candidates + rest.questions| <= count
  {
    IdsSameMembers(candidates, TierUnseen(c, served, d));
    assert (candidates + rest.questions)[..|candidates|] == candidates;
  }

  /** Tier 4's unseen questions alone fill tier 4 when it is short: nothing comes after it. */
  lemma {:induction false} LastTierFill(c: Catalog, served: set<Int32>, d: int, candidates: seq<Question>, count: int)
    requires d == 4
    requires multiset(candidates) == multiset(TierUnseen(c, served, d))
    requires forall q :: q in candidates <==> q in TierUnseen(c, served, d)
    requires |candidates| == |TierUnseen(c, served, d)| < count
    requires DistinctIds(All(c)) ==> DistinctIds(candidates)
    ensures TierFill(c, served, d, count, Append(served, candidates))
  {
    TiersAppend(c, d);
    assert Append(served, candidates).questions[..|candidates|] == candidates;
    if DistinctIds(All(c)) {
      TierSplitCount(c, served, d);
      assert Unseen(Tiers(c, 5), served) == [];
    }
  }

  // ---------------------------------------------------------------------
  // Pool fill: AddQuestionsAny
  // ---------------------------------------------------------------------

  /** The first `count` of `s`, or all of it (LINQ `Take`). */
  function Take(s: seq<Question>, count: int): (r: seq<Question>)
    ensures |r| == if count <= 0 then 0 else Min(count, |s|)
    ensures r == s[..|r|]
    ensures forall q :: q in r ==> q in s
  {
    if count <= 0 then [] else s[..Min(count, |s|)]
  }

  /** The unseen questions of each bucket, gathered bucket by bucket, are the catalog's unseen questions. */
  lemma {:induction false} PoolCandidates(c: Catalog, served: set<Int32>)
    ensures Unseen(c.tier1, served) + Unseen(c.tier2, served) + Unseen(c.tier3, served)
            + Unseen(c.tier4, served) == Unseen(All(c), served)
  {
    AllBuckets(c);
    UnseenAppend(c.tier1 + c.tier2 + c.tier3, c.tier4, served);
    UnseenAppend(c.tier1 + c.tier2, c.tier3, served);
    UnseenAppend(c.tier1, c.tier2, served);
  }

  /**
    What a pool fill asked for `count` questions promises: a fresh pick of
    catalog questions, as many as asked for or as the catalog has unseen
    (none for a count of zero or less), distinct when the catalog's IDs are.
   */
  predicate PoolFill(c: Catalog, served: set<Int32>, count: int, r: Pick)
  {
    && FreshPick(r, served)
    && |r.questions| == (if count <= 0 then 0 else Min(count, |Unseen(All(c), served)|))
    && (forall q :: q in r.questions ==> q in All(c))
    && (DistinctIds(All(c)) ==> DistinctIds(r.questions))
  }

  /**
    `AddQuestionsAny`: gather every unseen question of every tier, shuffle,
    append the first `count` and mark them.
   */
  method AddQuestionsAny(c: Catalog, shuffle: Shuffle, served: set<Int32>, count: int) returns (r: Pick)
    requires ValidShuffle(shuffle)
    ensures PoolFill(c, served, count, r)
  {
    var allCandidates := Unseen(c.tier1, served) + Unseen(c.tier2, served)
                         + Unseen(c.tier3, served) + Unseen(c.tier4, served);
    PoolCandidates(c, served);
    var shuffled := Shuffled(shuffle, allCandidates);
    var picked := Take(shuffled, count);
    if DistinctIds(All(c)) {
      DistinctIdsUnseen(All(c), served);
      DistinctIdsPrefix(shuffled, |picked|);
    }
    r := Append(served, picked);
  }

  // ---------------------------------------------------------------------
  // The level request: GetQuestionsForLevel
  // ---------------------------------------------------------------------

  /** The questions of one level, the served set afterwards, and whether the history was reset on the way. */
  datatype LevelPlan = LevelPlan(questions: seq<Question>, served: set<Int32>, historyReset: bool)

  /** A fresh pick of at most `bound` catalog questions, distinct when the catalog's IDs are. */
  predicate Filled(c: Catalog, served: set<Int32>, bound: int, r: Pick)
  {
    && FreshPick(r, served)
    && |r.questions| <= bound
    && (forall q :: q in r.questions ==> q in All(c))
    && (DistinctIds(All(c)) ==> DistinctIds(r.questions))
  }

  /** Tier `d`'s turn of the quota loop from the served set `before`: nothing for a zero count, otherwise a tier fill for that count. */
  ghost predicate TierTurn(c: Catalog, quota: Quota, d: int, before: set<Int32>, p: Pick)
    requires 1 <= d <= 4
  {
    if quota.For(d) == 0 then p == Pick([], before) else TierFill(c, before, d, quota.For(d), p)
  }

  /** The served set in force when turn `i` of the quota loop (tier `i+1`) starts. */
  function ServedBefore(served: set<Int32>, turns: seq<Pick>, i: int): set<Int32>
    requires 0 <= i <= |turns|
  {
    if i == 0 then served else turns[i - 1].served
  }

  /** `turns[i]` is tier `i+1`'s turn, each starting from the served set the turn before it left. */
  ghost predicate QuotaTurns(c: Catalog, served: set<Int32>, quota: Quota, turns: seq<Pick>)
  {
    && |turns| <= 4
    && forall i {:trigger ServedBefore(served, turns, i)} :: 0 <= i < |turns| ==>
         TierTurn(c, quota, i + 1, ServedBefore(served, turns, i), turns[i])
  }

  /** What the turns appended, in turn order. */
  function Joined(turns: seq<Pick>): seq<Question>
  {
    if turns == [] then [] else Joined(turns[..|turns| - 1]) + turns[|turns| - 1].questions
  }

  /** Recording one more turn that starts where the recorded turns left off keeps the record a run of the quota loop. */
  lemma {:induction false} TurnsExtend(c: Catalog, served: set<Int32>, quota: Quota, turns: seq<Pick>, p: Pick)
    requires |turns| < 4
    requires QuotaTurns(c, served, quota, turns)
    requires TierTurn(c, quota, |turns| + 1, ServedBefore(served, turns, |turns|), p)
    ensures QuotaTurns(c, served, quota, turns + [p])
    ensures ServedBefore(served, turns + [p], |turns| + 1) == p.served
  {
    var next := turns + [p];
    forall i | 0 <= i < |next|
      ensures TierTurn(c, quota, i + 1, ServedBefore(served, next, i), next[i])
    {
      if i < |turns| {
        TurnKept(c, served, quota, turns, p, i);
      } else {
        assert next[i] == p && ServedBefore(served, next, i) == ServedBefore(served, turns, |turns|);
      }
    }
  }

  /** A recorded turn stays the same turn, from the same served set, once another turn is recorded after it. */
  lemma TurnKept(c: Catalog, served: set<Int32>, quota: Quota, turns: seq<Pick>, p: Pick, i: int)
    requires 0 <= i < |turns| < 4
    requires TierTurn(c, quota, i + 1, ServedBefore(served, turns, i), turns[i])
    ensures TierTurn(c, quota, i + 1, ServedBefore(served, turns + [p], i), (turns + [p])[i])
  {
    assert (turns + [p])[i] == turns[i];
    assert ServedBefore(served, turns + [p], i) == ServedBefore(served, turns, i);
  }

  lemma {:induction false} JoinedExtend(turns: seq<Pick>, p: Pick)
    ensures Joined(turns + [p]) == Joined(turns) + p.questions
  {
    assert (turns + [p])[..|turns|] == turns;
  }

  /** Tier `d`'s turn appended to a fill of tiers 1..d-1 keeps the list within the quota of tiers 1..d. */
  lemma {:induction false} TurnFilled(c: Catalog, served: set<Int32>, quota: Quota, d: int, r: Pick, p: Pick)
    requires 1 <= d <= 4
    requires Filled(c, served, quota.SumBelow(d), r)
    requires TierTurn(c, quota, d, r.served, p)
    ensures Filled(c, served, quota.SumBelow(d + 1), Pick(r.questions + p.questions, p.served))
  {
    if quota.For(d) == 0 {
      assert Ids([]) == {};
    }
    forall q | q in p.questions
      ensures q in All(c)
    {
      TiersInAll(c, d, q);
    }
    FreshPickThen(r, p, served);
    if DistinctIds(All(c)) {
      FreshPickDistinct(r, p, served);
    }
  }

  /**
    One turn of the quota loop: tier `d`'s fill, recorded after the turns of
    tiers 1..d-1, is that tier's turn and appends its fill to what they gave.
   */
  lemma {:induction false} QuotaStep(c: Catalog, served: set<Int32>, quota: Quota, turns: seq<Pick>, r: Pick, p: Pick)
    requires |turns| < 4
    requires QuotaTurns(c, served, quota, turns)
    requires r.questions == Joined(turns) && r.served == ServedBefore(served, turns, |turns|)
    requires Filled(c, served, quota.SumBelow(|turns| + 1), r)
    requires quota.For(|turns| + 1) == 0 ==> p == Pick([], r.served)
    requires quota.For(|turns| + 1) > 0 ==> TierFill(c, r.served, Cap(|turns| + 1), quota.For(|turns| + 1), p)
    ensures TierTurn(c, quota, |turns| + 1, r.served, p)
    ensures QuotaTurns(c, served, quota, turns + [p])
    ensures Joined(turns + [p]) == r.questions + p.questions
    ensures ServedBefore(served, turns + [p], |turns| + 1) == p.served
    ensures Filled(c, served, quota.SumBelow(|turns| + 2), Pick(r.questions + p.questions, p.served))
  {
    var d := |turns| + 1;
    assert Cap(d) == d;
    assert TierTurn(c, quota, d, r.served, p);
    TurnsExtend(c, served, quota, turns, p);
    JoinedExtend(turns, p);
    TurnFilled(c, served, quota, d, r, p);
  }

  lemma {:induction false} SumBelowAll(quota: Quota)
    ensures quota.SumBelow(5) == quota.Sum()
  {
  }

  /** Every tier has at least its count of unseen questions. */
  predicate QuotaAvailable(c: Catalog, served: set<Int32>, quota: Quota)
  {
    forall d :: 1 <= d <= 4 ==> quota.For(d) <= |TierUnseen(c, served, d)|
  }

  /**
    The list follows the quota: `quota.Sum()` questions, the first
    `quota.For(1)` of them unseen questions of tier 1, the next
    `quota.For(2)` unseen questions of tier 2, and so on.
   */
  predicate FollowsQuota(c: Catalog, served: set<Int32>, quota: Quota, qs: seq<Question>)
  {
    && |qs| == quota.Sum()
    && forall d :: 1 <= d <= 4 ==> forall q :: q in Share(quota, qs, d) ==> q in TierUnseen(c, served, d)
  }

  /** Tier `d`'s part of a list laid out by the quota: the `quota.For(d)` entries after those of tiers 1..d-1. */
  function Share(quota: Quota, qs: seq<Question>, d: int): (r: seq<Question>)
    requires 1 <= d <= 4 && |qs| == quota.Sum()
    ensures |r| == quota.For(d)
  {
    qs[quota.SumBelow(d)..quota.SumBelow(d + 1)]
  }

  /** Tier `d`'s turn took its whole count, every one an unseen question of tier `d`. */
  predicate TierShare(c: Catalog, served: set<Int32>, quota: Quota, d: int, p: Pick)
    requires 1 <= d <= 4
  {
    && |p.questions| == quota.For(d)
    && forall q :: q in p.questions ==> q in TierUnseen(c, served, d)
  }

  /** The IDs of tiers 1..d-1. */
  function BelowIds(c: Catalog, d: int): set<Int32>
    requires 1 <= d <= 5
    decreases d
  {
    if d == 1 then {} else BelowIds(c, d - 1) + Ids(c.Bucket(d - 1))
  }

  /** A question of tier `d` is a question of tiers `j`..4 for every `j <= d`. */
  lemma {:induction false} BucketInTiers(c: Catalog, j: int, d: int, q: Question)
    requires 1 <= j <= d <= 4
    requires q in c.Bucket(d)
    ensures q in Tiers(c, j)
    decreases d - j
  {
    TiersAppend(c, j);
    if j < d {
      BucketInTiers(c, j + 1, d, q);
    }
  }

  /** With distinct catalog IDs, no ID of tier `d` is an ID of tiers 1..j-1, for `j <= d`. */
  lemma {:induction false} BelowIdsDisjoint(c: Catalog, j: int, d: int)
    requires 1 <= j <= d <= 4
    requires DistinctIds(All(c))
    ensures Ids(c.Bucket(d)) !! BelowIds(c, j)
    decreases j
  {
    if j > 1 {
      BelowIdsDisjoint(c, j - 1, d);
      TiersDistinct(c, j - 1);
      forall x | x in Ids(c.Bucket(d))
        ensures x !in Ids(c.Bucket(j - 1))
      {
        var q :| q in c.Bucket(d) && q.id == x;
        BucketInTiers(c, j, d, q);
        assert x in Ids(Tiers(c, j));
      }
    }
  }

  /**
    With distinct catalog IDs, marking IDs of tiers 1..d-1 leaves tier `d`'s
    unseen questions as they were.
   */
  lemma {:induction false} TierUnseenKept(c: Catalog, served: set<Int32>, before: set<Int32>, d: int)
    requires 1 <= d <= 4
    requires DistinctIds(All(c))
    requires served <= before && before - served <= BelowIds(c, d)
    ensures TierUnseen(c, before, d) == TierUnseen(c, served, d)
  {
    BelowIdsDisjoint(c, d, d);
    UnseenIgnoresForeignIds(c.Bucket(d), served, before - served);
    assert served + (before - served) == before;
  }

  /**
    With distinct catalog IDs, a turn of tier `d` that finds the tier holding
    at least its count unseen takes exactly that count, all unseen questions
    of tier `d`, and marks only their IDs.
   */
  lemma {:induction false} TurnTakesShare(c: Catalog, served: set<Int32>, quota: Quota, d: int, before: set<Int32>, p: Pick)
    requires 1 <= d <= 4
    requires DistinctIds(All(c))
    requires quota.For(d) <= |TierUnseen(c, served, d)|
    requires TierUnseen(c, before, d) == TierUnseen(c, served, d)
    requires TierTurn(c, quota, d, before, p)
    ensures TierShare(c, served, quota, d, p)
    ensures p.served == before + Ids(p.questions)
    ensures Ids(p.questions) <= Ids(c.Bucket(d))
  {
    if quota.For(d) == 0 {
      assert Ids([]) == {};
    } else {
      TierSplitCount(c, before, d);
    }
    forall x | x in Ids(p.questions)
      ensures x in Ids(c.Bucket(d))
    {
      var q :| q in p.questions && q.id == x;
      assert q in TierUnseen(c, served, d);
    }
  }

  /**
    Turn `k` of the quota loop, with distinct catalog IDs and every tier
    holding its count unseen: when only IDs of tiers 1..k-1 were marked
    before it, the turn takes tier `k`'s count from that tier's unseen
    questions and adds only IDs of tier `k`.
   */
  lemma {:induction false} TurnStep(c: Catalog, served: set<Int32>, quota: Quota, turns: seq<Pick>, k: int)
    requires DistinctIds(All(c))
    requires QuotaAvailable(c, served, quota)
    requires QuotaTurns(c, served, quota, turns)
    requires 1 <= k <= |turns|
    requires served <= ServedBefore(served, turns, k - 1)
    requires ServedBefore(served, turns, k - 1) - served <= BelowIds(c, k)
    ensures TierShare(c, served, quota, k, turns[k - 1])
    ensures served <= ServedBefore(served, turns, k)
    ensures ServedBefore(served, turns, k) - served <= BelowIds(c, k + 1)
  {
    var before := ServedBefore(served, turns, k - 1);
    assert TierTurn(c, quota, k, before, turns[k - 1]);
    assert quota.For(k) <= |TierUnseen(c, served, k)|;
    TierUnseenKept(c, served, before, k);
    TurnTakesShare(c, served, quota, k, before, turns[k - 1]);
  }

  /**
    With distinct catalog IDs and every tier holding its count unseen, each of
    the first `k` turns takes its whole count from its own tier's unseen
    questions, and what they mark are IDs of tiers 1..k.
   */
  lemma {:induction false} QuotaMetUpTo(c: Catalog, served: set<Int32>, quota: Quota, turns: seq<Pick>, k: int)
    requires DistinctIds(All(c))
    requires QuotaAvailable(c, served, quota)
    requires QuotaTurns(c, served, quota, turns)
    requires 0 <= k <= |turns|
    ensures forall i :: 0 <= i < k ==> TierShare(c, served, quota, i + 1, turns[i])
    ensures served <= ServedBefore(served, turns, k)
    ensures ServedBefore(served, turns, k) - served <= BelowIds(c, k + 1)
    decreases k
  {
    if k > 0 {
      QuotaMetUpTo(c, served, quota, turns, k - 1);
      TurnStep(c, served, quota, turns, k);
      forall i | 0 <= i < k
        ensures TierShare(c, served, quota, i + 1, turns[i])
      {
        if i == k - 1 {
          assert i + 1 == k;
        }
      }
    }
  }

  /** The four turns' lists, one after another. */
  lemma {:induction false} JoinedFour(turns: seq<Pick>)
    requires |turns| == 4
    ensures Joined(turns) == turns[0].questions + turns[1].questions + turns[2].questions + turns[3].questions
  {
    var t1, t2, t3 := turns[..1], turns[..2], turns[..3];
    assert Joined(t1) == turns[0].questions by {
      assert t1[..0] == [];
    }
    assert Joined(t2) == Joined(t1) + turns[1].questions by {
      assert t2[..1] == t1;
    }
    assert Joined(t3) == Joined(t2) + turns[2].questions by {
      assert t3[..2] == t2;
    }
    assert turns[..3] == t3;
  }

  /** Four lists, one after another, sliced back at their boundaries. */
  lemma {:induction false} SliceFour(p1: seq<Question>, p2: seq<Question>, p3: seq<Question>, p4: seq<Question>)
    ensures var qs := p1 + p2 + p3 + p4;
      && qs[..|p1|] == p1
      && qs[|p1|..|p1| + |p2|] == p2
      && qs[|p1| + |p2|..|p1| + |p2| + |p3|] == p3
      && qs[|p1| + |p2| + |p3|..] == p4
  {
  }

  /** When each turn took its tier's count, tier `d`'s share of the joined list is what turn `d` appended. */
  lemma {:induction false} ShareOfJoined(quota: Quota, turns: seq<Pick>, d: int)
    requires 1 <= d <= 4 && |turns| == 4
    requires |turns[0].questions| == quota.tier1 && |turns[1].questions| == quota.tier2
    requires |turns[2].questions| == quota.tier3 && |turns[3].questions| == quota.tier4
    ensures |Joined(turns)| == quota.Sum()
    ensures Share(quota, Joined(turns), d) == turns[d - 1].questions
  {
    JoinedFour(turns);
    SliceFour(turns[0].questions, turns[1].questions, turns[2].questions, turns[3].questions);
  }

  /**
    With distinct catalog IDs and every tier holding its count unseen, the
    quota loop's four turns together follow the quota.
   */
  lemma {:induction false} QuotaMet(c: Catalog, served: set<Int32>, quota: Quota, turns: seq<Pick>)
    requires DistinctIds(All(c))
    requires QuotaAvailable(c, served, quota)
    requires |turns| == 4 && QuotaTurns(c, served, quota, turns)
    ensures FollowsQuota(c, served, quota, Joined(turns))
  {
    QuotaMetUpTo(c, served, quota, turns, 4);
    assert TierShare(c, served, quota, 1, turns[0]) && TierShare(c, served, quota, 2, turns[1]);
    assert TierShare(c, served, quota, 3, turns[2]) && TierShare(c, served, quota, 4, turns[3]);
    ShareOfJoined(quota, turns, 1);
    forall d | 1 <= d <= 4
      ensures forall q :: q in Share(quota, Joined(turns), d) ==> q in TierUnseen(c, served, d)
    {
      ShareOfJoined(quota, turns, d);
      assert TierShare(c, served, quota, d, turns[d - 1]);
    }
  }

  /**
    The quota loop: tiers 1 to 4 in turn, each asked for its own count from
    the served set the turn before it left. `turns` records the four turns.
   */
  method FillQuota(c: Catalog, shuffle: Shuffle, served: set<Int32>, quota: Quota) returns (r: Pick, ghost turns: seq<Pick>)
    requires ValidShuffle(shuffle)
    ensures Filled(c, served, quota.Sum(), r)
    ensures |turns| == 4 && QuotaTurns(c, served, quota, turns)
    ensures r.questions == Joined(turns) && r.served == turns[3].served
    ensures DistinctIds(All(c)) && QuotaAvailable(c, served, quota) ==> FollowsQuota(c, served, quota, r.questions)
  {
    r := Nothing(served);
    turns := [];
    var d := 1;
    while d <= 4
      invariant 1 <= d <= 5 && |turns| == d - 1
      invariant QuotaTurns(c, served, quota, turns)
      invariant r.questions == Joined(turns) && r.served == ServedBefore(served, turns, |turns|)
      invariant Filled(c, served, quota.SumBelow(d), r)
    {
      var p := AddQuestionsByDifficulty(c, shuffle, r.served, d, quota.For(d));
      QuotaStep(c, served, quota, turns, r, p);
      r := Pick(r.questions + p.questions, p.served);
      turns := turns + [p];
      d := d + 1;
    }
    SumBelowAll(quota);
    if DistinctIds(All(c)) && QuotaAvailable(c, served, quota) {
      QuotaMet(c, served, quota, turns);
    }
  }

  /**
    `qs` opens with what a run of the quota loop from `served` appended:
    four recorded tier turns, in turn order.
   */
  ghost predicate OpensWithQuota(c: Catalog, served: set<Int32>, quota: Quota, qs: seq<Question>)
  {
    exists turns {:trigger QuotaTurns(c, served, quota, turns)} ::
      && |turns| == 4
      && QuotaTurns(c, served, quota, turns)
      && |Joined(turns)| <= |qs|
      && qs[..|Joined(turns)|] == Joined(turns)
  }

  /** Four recorded turns whose joined questions open `qs` witness that `qs` opens with the quota loop. */
  lemma QuotaOpens(c: Catalog, served: set<Int32>, quota: Quota, turns: seq<Pick>, qs: seq<Question>)
    requires |turns| == 4 && QuotaTurns(c, served, quota, turns)
    requires |Joined(turns)| <= |qs| && qs[..|Joined(turns)|] == Joined(turns)
    ensures OpensWithQuota(c, served, quota, qs)
  {
  }

  /** Appending to a list that opens with the quota loop keeps that opening. */
  lemma OpensWithLonger(c: Catalog, served: set<Int32>, quota: Quota, qs: seq<Question>, more: seq<Question>)
    requires OpensWithQuota(c, served, quota, qs)
    ensures OpensWithQuota(c, served, quota, qs + more)
  {
    var turns :| && |turns| == 4
                 && QuotaTurns(c, served, quota, turns)
                 && |Joined(turns)| <= |qs|
                 && qs[..|Joined(turns)|] == Joined(turns);
    assert (qs + more)[..|Joined(turns)|] == qs[..|Joined(turns)|];
    QuotaOpens(c, served, quota, turns, qs + more);
  }

  /**
    What the first pass of a level promises: a fresh pick of at most ten
    catalog questions that opens with the quota loop's four tier turns;
    with distinct catalog IDs, ten distinct questions, or every unseen one
    when fewer are left, and a list that follows the quota whenever every
    tier has its count unseen.
   */
  ghost predicate FirstPassFill(c: Catalog, served: set<Int32>, quota: Quota, r: Pick)
  {
    && Filled(c, served, QuestionsPerLevel, r)
    && OpensWithQuota(c, served, quota, r.questions)
    && (DistinctIds(All(c)) ==> |r.questions| == Min(QuestionsPerLevel, |Unseen(All(c), served)|))
    && (DistinctIds(All(c)) && QuotaAvailable(c, served, quota) ==> FollowsQuota(c, served, quota, r.questions))
  }

  /** A quota fill that already holds ten questions is a complete first pass. */
  lemma {:induction false} QuotaFull(c: Catalog, served: set<Int32>, quota: Quota, turns: seq<Pick>, tiers: Pick)
    requires quota.Sum() == QuestionsPerLevel
    requires |turns| == 4 && QuotaTurns(c, served, quota, turns) && tiers.questions == Joined(turns)
    requires Filled(c, served, quota.Sum(), tiers)
    requires DistinctIds(All(c)) && QuotaAvailable(c, served, quota) ==> FollowsQuota(c, served, quota, tiers.questions)
    requires |tiers.questions| >= QuestionsPerLevel
    ensures FirstPassFill(c, served, quota, tiers)
  {
    assert tiers.questions[..|Joined(turns)|] == Joined(turns);
    QuotaOpens(c, served, quota, turns, tiers.questions);
    if DistinctIds(All(c)) {
      FreshPickUnseen(All(c), tiers, served);
    }
  }

  /** A short quota fill topped up by a pool fill for the difference is a complete first pass. */
  lemma {:induction false} TopUpFill(c: Catalog, served: set<Int32>, quota: Quota, turns: seq<Pick>, tiers: Pick, pooled: Pick)
    requires quota.Sum() == QuestionsPerLevel
    requires |turns| == 4 && QuotaTurns(c, served, quota, turns) && tiers.questions == Joined(turns)
    requires Filled(c, served, quota.Sum(), tiers)
    requires DistinctIds(All(c)) && QuotaAvailable(c, served, quota) ==> FollowsQuota(c, served, quota, tiers.questions)
    requires |tiers.questions| < QuestionsPerLevel
    requires PoolFill(c, tiers.served, QuestionsPerLevel - |tiers.questions|, pooled)
    ensures FirstPassFill(c, served, quota, Pick(tiers.questions + pooled.questions, pooled.served))
  {
    var r := Pick(tiers.questions + pooled.questions, pooled.served);
    assert r.questions[..|Joined(turns)|] == Joined(turns);
    QuotaOpens(c, served, quota, turns, r.questions);
    FreshPickThen(tiers, pooled, served);
    assert |r.questions| == |tiers.questions| + |pooled.questions| <= QuestionsPerLevel;
    if DistinctIds(All(c)) {
      FreshPickDistinct(tiers, pooled, served);
      assert |r.questions| == Min(QuestionsPerLevel, |Unseen(All(c), served)|) by {
        FreshPickUnseen(All(c), tiers, served);
        MinAdd(|tiers.questions|, QuestionsPerLevel, |Unseen(All(c), tiers.served)|, |pooled.questions|);
      }
    }
  }

  /**
    The quota loop followed by the first fallback, a pool fill up to ten:
    everything a level does before a reset.
   */
  method FirstPass(c: Catalog, shuffle: Shuffle, served: set<Int32>, level: int) returns (r: Pick)
    requires ValidShuffle(shuffle)
    ensures FirstPassFill(c, served, GetDistributionForLevel(level), r)
  {
    var quota := GetDistributionForLevel(level);
    var tiers: Pick;
    ghost var turns: seq<Pick>;
    tiers, turns := FillQuota(c, shuffle, served, quota);
    if |tiers.questions| < QuestionsPerLevel {
      var pooled := AddQuestionsAny(c, shuffle, tiers.served, QuestionsPerLevel - |tiers.questions|);
      r := Pick(tiers.questions + pooled.questions, pooled.served);
      TopUpFill(c, served, quota, turns, tiers, pooled);
    } else {
      r := tiers;
      QuotaFull(c, served, quota, turns, tiers);
    }
  }

  /**
    What a level request promises. At most ten questions, all from the
    catalog, and exactly ten whenever the catalog holds ten; the list opens
    with the quota loop's four tier turns, reset or not. Without a reset
    the list is a fresh pick of ten; after a reset only the refill is
    served. With distinct catalog IDs: the history is reset exactly when
    fewer than ten questions were unseen; without a reset the ten are
    distinct, and follow the quota whenever every tier has its count unseen;
    with one, the list opens with every unseen question, each exactly once,
    is topped up from the whole catalog with distinct IDs, and the served
    set is the IDs of the top-up.
   */
  ghost predicate LevelFill(c: Catalog, served: set<Int32>, quota: Quota, r: LevelPlan)
  {
    && |r.questions| <= QuestionsPerLevel
    && OpensWithQuota(c, served, quota, r.questions)
    && (|All(c)| >= QuestionsPerLevel ==> |r.questions| == QuestionsPerLevel)
    && (forall q :: q in r.questions ==> q in All(c))
    && (!r.historyReset ==>
          |r.questions| == QuestionsPerLevel && FreshPick(Pick(r.questions, r.served), served))
    && (r.historyReset ==> r.served <= Ids(r.questions))
    && (DistinctIds(All(c)) ==> (r.historyReset <==> |Unseen(All(c), served)| < QuestionsPerLevel))
    && (DistinctIds(All(c)) && !r.historyReset ==> DistinctIds(r.questions))
    && (DistinctIds(All(c)) && QuotaAvailable(c, served, quota) ==> FollowsQuota(c, served, quota, r.questions))
    && (DistinctIds(All(c)) && r.historyReset ==>
          var unseen := Unseen(All(c), served);
          && |r.questions| == Min(QuestionsPerLevel, |unseen| + |All(c)|)
          && (forall q :: q in r.questions[..|unseen|] ==> q in unseen)
          && multiset(r.questions[..|unseen|]) == multiset(unseen)
          && DistinctIds(r.questions[|unseen|..])
          && r.served == Ids(r.questions[|unseen|..]))
  }

  /** A first pass of ten is the level: no reset. */
  lemma {:induction false} WithoutReset(c: Catalog, served: set<Int32>, quota: Quota, first: Pick)
    requires FirstPassFill(c, served, quota, first)
    requires |first.questions| >= QuestionsPerLevel
    ensures LevelFill(c, served, quota, LevelPlan(first.questions, first.served, false))
  {
  }

  /**
    A short first pass followed by the second fallback is the level: the
    served history is cleared and a pool fill over the whole catalog tops
    the list up; only the refill's IDs are served afterwards.
   */
  lemma {:induction false} WithReset(c: Catalog, served: set<Int32>, quota: Quota, first: Pick, refill: Pick)
    requires quota.Sum() == QuestionsPerLevel
    requires FirstPassFill(c, served, quota, first)
    requires |first.questions| < QuestionsPerLevel
    requires PoolFill(c, {}, QuestionsPerLevel - |first.questions|, refill)
    ensures LevelFill(c, served, quota, LevelPlan(first.questions + refill.questions, refill.served, true))
  {
    var qs := first.questions + refill.questions;
    ShortPassMissesQuota(c, served, quota, first);
    ResetSize(c, first.questions, refill);
    if DistinctIds(All(c)) {
      RefillServed(c, first.questions, refill);
      ResetOpensWithUnseen(c, served, first, qs);
    }
    OpensWithLonger(c, served, quota, first.questions, refill.questions);
    ResetLevel(c, served, quota, first.questions, refill);
  }

  /** The facts a reset establishes, gathered into the level's promise. */
  lemma {:induction false} ResetLevel(c: Catalog, served: set<Int32>, quota: Quota, list: seq<Question>, refill: Pick)
    requires var qs := list + refill.questions;
             && |qs| == Min(QuestionsPerLevel, |list| + |All(c)|)
             && (|All(c)| >= QuestionsPerLevel ==> |qs| == QuestionsPerLevel)
             && (forall q :: q in qs ==> q in All(c))
             && refill.served <= Ids(qs)
    requires |list| < QuestionsPerLevel
    requires OpensWithQuota(c, served, quota, list + refill.questions)
    requires !(DistinctIds(All(c)) && QuotaAvailable(c, served, quota))
    requires DistinctIds(All(c)) ==>
               var qs := list + refill.questions;
               && qs[..|list|] == list
               && refill.served == Ids(qs[|list|..])
               && DistinctIds(qs[|list|..])
               && |Unseen(All(c), served)| == |list|
               && (forall q :: q in qs[..|Unseen(All(c), served)|] ==> q in Unseen(All(c), served))
               && multiset(qs[..|Unseen(All(c), served)|]) == multiset(Unseen(All(c), served))
    ensures LevelFill(c, served, quota, LevelPlan(list + refill.questions, refill.served, true))
  {
  }

  /** A short list topped up by a pool fill over the whole catalog: its size and where its questions come from. */
  lemma {:induction false} ResetSize(c: Catalog, list: seq<Question>, refill: Pick)
    requires |list| < QuestionsPerLevel
    requires forall q :: q in list ==> q in All(c)
    requires PoolFill(c, {}, QuestionsPerLevel - |list|, refill)
    ensures var qs := list + refill.questions;
            && |qs| == Min(QuestionsPerLevel, |list| + |All(c)|)
            && (|All(c)| >= QuestionsPerLevel ==> |qs| == QuestionsPerLevel)
            && (forall q :: q in qs ==> q in All(c))
            && refill.served <= Ids(qs)
  {
    var qs := list + refill.questions;
    UnseenNothingServed(All(c));
    assert |refill.questions| == Min(QuestionsPerLevel - |list|, |All(c)|);
    MinAdd(|list|, QuestionsPerLevel, |All(c)|, |refill.questions|);
    IdsAppend(list, refill.questions);
  }

  /** After a reset only the refill is served: its IDs are those of the list past the first pass. */
  lemma {:induction false} RefillServed(c: Catalog, list: seq<Question>, refill: Pick)
    requires PoolFill(c, {}, QuestionsPerLevel - |list|, refill)
    ensures var qs := list + refill.questions;
            && qs[..|list|] == list
            && refill.served == Ids(qs[|list|..])
            && (DistinctIds(All(c)) ==> DistinctIds(qs[|list|..]))
  {
    var qs := list + refill.questions;
    assert qs[..|list|] == list;
    assert qs[|list|..] == refill.questions;
  }

  /** A first pass short of ten means the catalog repeats an ID or some tier is short of its count. */
  lemma {:induction false} ShortPassMissesQuota(c: Catalog, served: set<Int32>, quota: Quota, first: Pick)
    requires quota.Sum() == QuestionsPerLevel
    requires FirstPassFill(c, served, quota, first)
    requires |first.questions| < QuestionsPerLevel
    ensures !(DistinctIds(All(c)) && QuotaAvailable(c, served, quota))
  {
  }

  /** After a short first pass with distinct catalog IDs, the level opens with every unseen question. */
  lemma {:induction false} ResetOpensWithUnseen(c: Catalog, served: set<Int32>, first: Pick, qs: seq<Question>)
    requires Filled(c, served, QuestionsPerLevel, first)
    requires DistinctIds(All(c))
    requires |first.questions| == Min(QuestionsPerLevel, |Unseen(All(c), served)|)
    requires |first.questions| < QuestionsPerLevel
    requires |first.questions| <= |qs| && qs[..|first.questions|] == first.questions
    ensures |Unseen(All(c), served)| == |first.questions|
    ensures forall q :: q in qs[..|Unseen(All(c), served)|] ==> q in Unseen(All(c), served)
    ensures multiset(qs[..|Unseen(All(c), served)|]) == multiset(Unseen(All(c), served))
  {
    var unseen := Unseen(All(c), served);
    assert |first.questions| == |unseen|;
    forall q | q in qs[..|unseen|]
      ensures q in unseen
    {
      assert q in first.questions;
    }
    DistinctIdsUnseen(All(c), served);
    DistinctSameMembers(first.questions, unseen);
  }

  /**
    `GetQuestionsForLevel`: the quota loop, then a pool fill when the list is
    short of ten, then, when it is still short, a reset of the served
    history and a second pool fill.
   */
  method GetQuestionsForLevel(c: Catalog, shuffle: Shuffle, served: set<Int32>, level: int) returns (r: LevelPlan)
    requires ValidShuffle(shuffle)
    ensures LevelFill(c, served, GetDistributionForLevel(level), r)
  {
    var quota := GetDistributionForLevel(level);
    var first := FirstPass(c, shuffle, served, level);
    if |first.questions| < QuestionsPerLevel {
      var refill := AddQuestionsAny(c, shuffle, {}, QuestionsPerLevel - |first.questions|);
      r := LevelPlan(first.questions + refill.questions, refill.served, true);
      WithReset(c, served, quota, first, refill);
    } else {
      r := LevelPlan(first.questions, first.served, false);
      WithoutReset(c, served, quota, first);
    }
  }

  // ---------------------------------------------------------------------
  // A repeated question after a reset
  // ---------------------------------------------------------------------

  /** A catalog holding one question, in tier 1. */
  function OneQuestionCatalog(q: Question): (c: Catalog)
    ensures All(c) == [q] && DistinctIds(All(c))
  {
    var c := Catalog([q], [], [], []);
    AllBuckets(c);
    assert Ids([q]) == {q.id};
    c
  }

  /**
    The reset branch can hand out the same question twice in one level: with
    a one-question catalog and nothing served, the level holds that question
    twice, once before the reset and once after.
   */
  method RepeatAfterReset(q: Question, shuffle: Shuffle, level: int) returns (r: LevelPlan)
    requires ValidShuffle(shuffle)
    ensures r.historyReset && r.questions == [q, q]
  {
    var c := OneQuestionCatalog(q);
    UnseenNothingServed(All(c));
    r := GetQuestionsForLevel(c, shuffle, {}, level);
    assert r.questions[0] in r.questions[..1];
    assert r.questions[1] in r.questions;
  }
}

=== FILE: fixjson.dfy ===
/**
  `fix_json.py`: closes a catalog file cut off inside its question array by
  truncating after the object that holds the last `"difficulty"` key and
  appending the array and document ends.

  The file is a string whose characters stand for its bytes (the catalog text
  is taken to be ASCII, so the 300-byte tail is the last 300 characters).
  The result is the new file text, or `None` when the script writes nothing.
 */
module FixJson {
  import opened Wrappers
  import opened PyText

  /** How many bytes from the end the script inspects first. */
  const TailSize := 300

  const DifficultyKey := "\"difficulty\""

  /** What the script appends after the cut: close the array, then the document. */
  const Closing := "\n  ]\n}"

  /** `f.seek(-300, 2); f.read()`: the last 300 bytes; a shorter file makes the seek fail. */
  function Tail(content: string): Option<string>
  {
    if |content| < TailSize then None else Some(content[|content| - TailSize..])
  }

  /** The cut point: the first `}` at or after the last `"difficulty"` key, or -1. */
  function CutPoint(content: string): (cut: int)
    ensures cut == -1 || (0 <= cut < |content| && content[cut] == '}')
  {
    var lastDiff := RFind(content, DifficultyKey);
    if lastDiff == -1 then -1
    else
      FindChar(content, '}', lastDiff)
  }

  /** The cut point is the first `}` at or after the last key, and there is none when either is missing. */
  lemma {:induction false} CutPointIsFirstBraceAfterKey(content: string)
    ensures var lastDiff := RFind(content, DifficultyKey);
            var cut := CutPoint(content);
            && (lastDiff == -1 ==> cut == -1)
            && (lastDiff != -1 ==> 0 <= lastDiff <= |content| && (cut == -1 <==> '}' !in content[lastDiff..]))
            && (cut != -1 ==> lastDiff <= cut && '}' !in content[lastDiff..cut])
  {
    var lastDiff := RFind(content, DifficultyKey);
    var cut := CutPoint(content);
    if lastDiff != -1 {
      if cut == -1 {
        assert forall x :: x in content[lastDiff..] ==> x != '}' by {
          forall x | x in content[lastDiff..] ensures x != '}' {
            var k :| 0 <= k < |content[lastDiff..]| && content[lastDiff..][k] == x;
            assert content[lastDiff + k] == x;
          }
        }
      } else {
        assert content[cut] in content[lastDiff..];
        forall x | x in content[lastDiff..cut] ensures x != '}' {
          var k :| 0 <= k < |content[lastDiff..cut]| && content[lastDiff..cut][k] == x;
          assert content[lastDiff + k] == x;
        }
      }
    }
  }

  /** The whole script as a function of the file text. */
  function FixJson(content: string): (r: Option<string>)
    ensures r.Some? <==> Tail(content).Some? && '}' in Tail(content).value && CutPoint(content) != -1
    ensures r.Some? ==> r.value == content[..CutPoint(content) + 1] + Closing
  {
    match Tail(content)
    case None => None
    case Some(tail) =>
      if RFindChar(tail, '}') == -1 then None
      else
        var cut := CutPoint(content);
        if cut == -1 then None else Some(content[..cut + 1] + Closing)
  }

  /** The file after one run: the rewrite, or the content as it was. */
  function Apply(content: string): string
  {
    match FixJson(content)
    case None => content
    case Some(fixed) => fixed
  }

  /** Cutting after `cut` and appending the closing keeps no occurrence of the key that was not already there. */
  lemma {:induction false} NoKeyAcrossCut(content: string, cut: int, i: int)
    requires 0 <= cut < |content|
    requires OccursAt(content[..cut + 1] + Closing, DifficultyKey, i)
    ensures OccursAt(content, DifficultyKey, i)
  {
    var fixed := content[..cut + 1] + Closing;
    var n := |DifficultyKey|;
    // An occurrence running over the cut would have to match the newline after it.
    var m := if i <= cut + 1 < i + n then cut + 1 else i;
    assert fixed[m] in fixed[i..i + n];
    assert fixed[cut + 1] == '\n';
    assert fixed[i..i + n] == content[i..i + n];
  }

  /** The last key of the rewritten text is the last key of the original. */
  lemma {:induction false} LastKeyStable(content: string, lastDiff: int, cut: int)
    requires lastDiff == RFind(content, DifficultyKey) && lastDiff != -1
    requires lastDiff <= cut < |content| && content[cut] == '}'
    ensures RFind(content[..cut + 1] + Closing, DifficultyKey) == lastDiff
  {
    var fixed := content[..cut + 1] + Closing;
    var n := |DifficultyKey|;
    // The key holds no `}`, so the cut lies past the end of the key.
    var m := if cut < lastDiff + n then cut else lastDiff;
    assert content[m] in content[lastDiff..lastDiff + n];
    assert OccursAt(fixed, DifficultyKey, lastDiff) by {
      assert fixed[lastDiff..lastDiff + n] == content[lastDiff..lastDiff + n];
    }
    forall i | lastDiff < i
      ensures !OccursAt(fixed, DifficultyKey, i)
    {
      if OccursAt(fixed, DifficultyKey, i) {
        NoKeyAcrossCut(content, cut, i);
      }
    }
  }

  /** The rewritten text has the same cut point as the text it came from. */
  lemma {:induction false} CutPointStable(content: string)
    requires CutPoint(content) != -1
    ensures var cut := CutPoint(content);
            CutPoint(content[..cut + 1] + Closing) == cut
  {
    var cut := CutPoint(content);
    var lastDiff := RFind(content, DifficultyKey);
    var fixed := content[..cut + 1] + Closing;
    LastKeyStable(content, lastDiff, cut);
    FindCharIsFirst(fixed, '}', lastDiff, cut);
  }

  /** Running the script a second time leaves the file as the first run left it. */
  lemma {:induction false} FixIdempotent(content: string)
    ensures Apply(Apply(content)) == Apply(content)
  {
    var r := FixJson(content);
    if r.Some? {
      var cut := CutPoint(content);
      var fixed := r.value;
      CutPointStable(content);
      if |fixed| >= TailSize {
        var tail := fixed[|fixed| - TailSize..];
        assert tail[TailSize - 1] == '}';
        assert fixed[..cut + 1] == content[..cut + 1];
      }
    }
  }
}

=== FILE: history.dfy ===
/**
  The served-question history of the question manager: the set of question IDs
  already shown to the player, its mark and reset operations, and its
  persisted form, the IDs joined with commas (`SaveServedQuestions`) and read
  back by splitting and parsing each piece (`LoadServedQuestions`).

  The device key-value store is modelled as an `Option<string>`: `None` when
  the key is absent (never saved, or deleted by a reset).
 */
module ServedHistory {
  import opened Wrappers
  import opened Questions

  /** `MarkAsServed` on the set: adding an ID already present changes nothing. */
  function MarkAsServed(served: set<Int32>, id: Int32): (r: set<Int32>)
    ensures id in r
    ensures served <= r && r - served <= {id}
    ensures id in served ==> r == served
  {
    if id in served then served else served + {id}
  }

  // ---------------------------------------------------------------------
  // Integer text: `int.ToString()` and `int.TryParse(string, out int)`
  // ---------------------------------------------------------------------

  predicate IsDigit(c: char)
  {
    '0' <= c <= '9'
  }

  predicate AllDigits(s: string)
  {
    forall i :: 0 <= i < |s| ==> IsDigit(s[i])
  }

  /** White space accepted around a number by the `Integer` number style. */
  predicate IsWhite(c: char)
  {
    c == ' ' || '\t' <= c <= '\r'
  }

  function TrimStart(s: string): string
  {
    if s != [] && IsWhite(s[0]) then TrimStart(s[1..]) else s
  }

  function TrimEnd(s: string): string
  {
    if s != [] && IsWhite(s[|s| - 1]) then TrimEnd(s[..|s| - 1]) else s
  }

  /** The value of a string of decimal digits, most significant first. */
  function DigitsValue(s: string): nat
    requires AllDigits(s)
  {
    if s == [] then 0 else DigitsValue(s[..|s| - 1]) * 10 + (s[|s| - 1] - '0') as nat
  }

  /** Decimal digits of `n`, no leading zeros. */
  function NatToString(n: nat): (r: string)
    ensures |r| > 0 && AllDigits(r)
  {
    if n < 10 then ['0' + n as char] else NatToString(n / 10) + ['0' + (n % 10) as char]
  }

  /** `int.ToString()`: a minus sign for negatives, then the digits. */
  function IntToString(x: int): (r: string)
    ensures |r| > 0 && ',' !in r
    ensures x >= 0 ==> AllDigits(r)
    ensures x < 0 ==> r[0] == '-' && |r| > 1 && AllDigits(r[1..])
  {
    if x < 0 then "-" + NatToString(-x) else NatToString(x)
  }

  /**
    `int.TryParse`: optional white space, an optional `+` or `-`, one or more
    digits, optional white space, and a value that fits in 32 bits.
   */
  function TryParseInt(s: string): (r: Option<Int32>)
    ensures (forall i :: 0 <= i < |s| ==> IsWhite(s[i])) ==> r == None
    ensures (exists i :: 0 <= i < |s| && Stray(s[i])) ==> r == None
  {
    TryParseRejects(s);
    ParseSigned(TrimEnd(TrimStart(s)))
  }

  /** A character that cannot appear in an `Integer`-style number: not a digit, a sign or white space. */
  predicate Stray(c: char)
  {
    !IsDigit(c) && !IsWhite(c) && c != '-' && c != '+'
  }

  /** Trimming white space from the front keeps every other character. */
  lemma {:induction false} TrimStartKeeps(s: string, c: char)
    requires c in s && !IsWhite(c)
    ensures c in TrimStart(s)
    decreases |s|
  {
    if s != [] && IsWhite(s[0]) {
      assert s == [s[0]] + s[1..];
      TrimStartKeeps(s[1..], c);
    }
  }

  /** Trimming white space from the back keeps every other character. */
  lemma {:induction false} TrimEndKeeps(s: string, c: char)
    requires c in s && !IsWhite(c)
    ensures c in TrimEnd(s)
    decreases |s|
  {
    if s != [] && IsWhite(s[|s| - 1]) {
      assert s == s[..|s| - 1] + [s[|s| - 1]];
      TrimEndKeeps(s[..|s| - 1], c);
    }
  }

  /** A string of white space trims to nothing. */
  lemma {:induction false} TrimStartBlank(s: string)
    requires forall i :: 0 <= i < |s| ==> IsWhite(s[i])
    ensures TrimStart(s) == []
    decreases |s|
  {
    if s != [] {
      TrimStartBlank(s[1..]);
    }
  }

  /** `ParseSigned` refuses a string holding a stray character. */
  lemma {:induction false} ParseSignedRejects(t: string, c: char)
    requires c in t && Stray(c)
    ensures ParseSigned(t) == None
  {
    var j :| 0 <= j < |t| && t[j] == c;
    var digits := if |t| > 0 && (t[0] == '-' || t[0] == '+') then t[1..] else t;
    if digits == t {
      assert !IsDigit(digits[j]);
    } else {
      assert !IsDigit(digits[j - 1]);
    }
  }

  lemma {:induction false} TryParseRejects(s: string)
    ensures (forall i :: 0 <= i < |s| ==> IsWhite(s[i])) ==> ParseSigned(TrimEnd(TrimStart(s))) == None
    ensures (exists i :: 0 <= i < |s| && Stray(s[i])) ==> ParseSigned(TrimEnd(TrimStart(s))) == None
  {
    if forall i :: 0 <= i < |s| ==> IsWhite(s[i]) {
      TrimStartBlank(s);
    }
    if exists i :: 0 <= i < |s| && Stray(s[i]) {
      var i :| 0 <= i < |s| && Stray(s[i]);
      TrimStartKeeps(s, s[i]);
      TrimEndKeeps(TrimStart(s), s[i]);
      ParseSignedRejects(TrimEnd(TrimStart(s)), s[i]);
    }
  }

  /** The number itself, once the surrounding white space is gone. */
  function ParseSigned(t: string): Option<Int32>
  {
    var negative := |t| > 0 && t[0] == '-';
    var digits := if |t| > 0 && (t[0] == '-' || t[0] == '+') then t[1..] else t;
    if digits == [] || !AllDigits(digits) then None
    else
      var v: int := if negative then -(DigitsValue(digits) as int) else DigitsValue(digits);
      if -0x8000_0000 <= v < 0x8000_0000 then Some(v) else None
  }

  lemma {:induction false} NatToStringValue(n: nat)
    ensures DigitsValue(NatToString(n)) == n
  {
    var s := NatToString(n);
    if n >= 10 {
      assert s[..|s| - 1] == NatToString(n / 10);
      NatToStringValue(n / 10);
    }
  }

  /** Printing an `int` and parsing it back gives the same `int`. */
  lemma IntToStringRoundTrip(x: Int32)
    ensures TryParseInt(IntToString(x)) == Some(x)
  {
    var s := IntToString(x);
    assert !IsWhite(s[0]) && !IsWhite(s[|s| - 1]);
    assert TrimStart(s) == s;
    assert TrimEnd(s) == s;
    if x < 0 {
      var n: nat := -(x as int);
      assert s[1..] == NatToString(n);
      NatToStringValue(n);
      assert ParseSigned(s) == Some(x);
    } else {
      NatToStringValue(x);
      assert ParseSigned(s) == Some(x);
    }
  }

  // ---------------------------------------------------------------------
  // Comma joining and splitting: `string.Join(",", …)` and `Split(',')`
  // ---------------------------------------------------------------------

  /** `string.Join(",", tokens)`; the empty collection joins to the empty string. */
  function Join(tokens: seq<string>): string
  {
    if tokens == [] then ""
    else if |tokens| == 1 then tokens[0]
    else tokens[0] + "," + Join(tokens[1..])
  }

  /** Joining comma-free pieces puts exactly one comma between each two neighbours. */
  lemma {:induction false} JoinCommas(tokens: seq<string>)
    requires forall t :: t in tokens ==> ',' !in t
    ensures multiset(Join(tokens))[','] == (if tokens == [] then 0 else |tokens| - 1)
  {
    if tokens != [] {
      assert tokens[0] in tokens;
      if |tokens| > 1 {
        var rest := Join(tokens[1..]);
        assert forall t :: t in tokens[1..] ==> t in tokens;
        JoinCommas(tokens[1..]);
        assert multiset(tokens[0] + "," + rest) == multiset(tokens[0]) + multiset(",") + multiset(rest);
      }
    }
  }

  /** `s.Split(',')`: the pieces between commas; never empty, `""` splits to `[""]`. */
  function Split(s: string): (r: seq<string>)
    ensures |r| >= 1
  {
    if s == [] then [""]
    else
      var rest := Split(s[1..]);
      if s[0] == ',' then [""] + rest else [[s[0]] + rest[0]] + rest[1..]
  }

  /** `s.Split(',')` gives one piece more than `s` has commas, and no piece holds a comma. */
  lemma {:induction false} SplitPieces(s: string)
    ensures |Split(s)| == multiset(s)[','] + 1
    ensures forall t :: t in Split(s) ==> ',' !in t
    decreases |s|
  {
    if s != [] {
      var rest := Split(s[1..]);
      SplitPieces(s[1..]);
      assert s == [s[0]] + s[1..];
      assert rest[0] in rest;
      assert forall t :: t in rest[1..] ==> t in rest;
    }
  }

  /** Splitting a comma-free prefix onto a string glues it to the first piece. */
  lemma {:induction false} SplitCommaFreePrefix(a: string, s: string)
    requires ',' !in a
    ensures Split(a + s) == [a + Split(s)[0]] + Split(s)[1..]
  {
    if a != [] {
      assert (a + s)[0] == a[0];
      assert (a + s)[1..] == a[1..] + s;
      SplitCommaFreePrefix(a[1..], s);
      assert [a[0]] + (a[1..] + Split(s)[0]) == a + Split(s)[0];
    } else {
      assert a + s == s;
      assert a + Split(s)[0] == Split(s)[0];
      assert Split(s) == [Split(s)[0]] + Split(s)[1..];
    }
  }

  /** A leading comma splits off an empty first piece. */
  lemma {:induction false} SplitAfterComma(rest: string)
    ensures Split("," + rest) == [""] + Split(rest)
  {
    assert ("," + rest)[0] == ',' && ("," + rest)[1..] == rest;
  }

  /** Splitting undoes joining when no piece contains a comma. */
  lemma {:induction false} SplitJoin(tokens: seq<string>)
    requires |tokens| >= 1
    requires forall t :: t in tokens ==> ',' !in t
    ensures Split(Join(tokens)) == tokens
  {
    if |tokens| == 1 {
      assert Split("") == [""];
      SplitCommaFreePrefix(tokens[0], "");
      assert tokens[0] + "" == tokens[0];
    } else {
      var rest := Join(tokens[1..]);
      SplitJoin(tokens[1..]);
      SplitAfterComma(rest);
      assert Join(tokens) == tokens[0] + ("," + rest);
      SplitCommaFreePrefix(tokens[0], "," + rest);
      assert tokens[0] + "" == tokens[0];
      assert tokens == [tokens[0]] + tokens[1..];
    }
  }

  // ---------------------------------------------------------------------
  // Save and load
  // ---------------------------------------------------------------------

  /**
    `SaveServedQuestions`: the IDs, printed and joined with commas. `order` is
    the enumeration order of the set, which the hash set decides.
   */
  function SaveServedQuestions(order: seq<Int32>): (r: string)
    ensures order == [] ==> r == ""
    ensures multiset(r)[','] == (if order == [] then 0 else |order| - 1)
    ensures order != [] ==>
              |Split(r)| == |order| && forall i :: 0 <= i < |order| ==> TryParseInt(Split(r)[i]) == Some(order[i])
  {
    var tokens := seq(|order|, i requires 0 <= i < |order| => IntToString(order[i]));
    PrintedIdsParse(order, tokens);
    JoinCommas(tokens);
    if order != [] then
      SplitJoin(tokens);
      Join(tokens)
    else
      Join(tokens)
  }

  /** Each printed ID is a comma-free piece that parses back to that ID. */
  lemma {:induction false} PrintedIdsParse(order: seq<Int32>, tokens: seq<string>)
    requires tokens == seq(|order|, i requires 0 <= i < |order| => IntToString(order[i]))
    ensures forall t :: t in tokens ==> ',' !in t
    ensures forall i :: 0 <= i < |order| ==> TryParseInt(tokens[i]) == Some(order[i])
  {
    forall i | 0 <= i < |order|
      ensures TryParseInt(tokens[i]) == Some(order[i])
    {
      IntToStringRoundTrip(order[i]);
    }
  }

  /** The IDs of the pieces that parse; the others are skipped. */
  function ParsedIds(tokens: seq<string>): set<Int32>
  {
    set t | t in tokens && TryParseInt(t).Some? :: TryParseInt(t).value
  }

  /** At most one ID per piece. */
  lemma {:induction false} ParsedIdsCount(tokens: seq<string>)
    ensures |ParsedIds(tokens)| <= |tokens|
    decreases |tokens|
  {
    if tokens != [] {
      var rest := tokens[1..];
      ParsedIdsCount(rest);
      var head := if TryParseInt(tokens[0]).Some? then {TryParseInt(tokens[0]).value} else {};
      assert ParsedIds(tokens) <= head + ParsedIds(rest) by {
        forall x | x in ParsedIds(tokens)
          ensures x in head + ParsedIds(rest)
        {
          var t :| t in tokens && TryParseInt(t).Some? && TryParseInt(t).value == x;
          if t != tokens[0] {
            assert t in rest;
          }
        }
      }
      SubsetCard(ParsedIds(tokens), head + ParsedIds(rest));
    }
  }

  lemma {:induction false} SubsetCard<T>(a: set<T>, b: set<T>)
    requires a <= b
    ensures |a| <= |b|
  {
    assert b == a + (b - a);
  }

  /**
    `LoadServedQuestions`: an absent key loads as the empty set; a stored
    string loads at most one ID per comma-separated piece.
   */
  function LoadServedQuestions(stored: Option<string>): (r: set<Int32>)
    ensures stored == None ==> r == {}
    ensures stored.Some? ==> |r| <= multiset(stored.value)[','] + 1
  {
    match stored
    case None => {}
    case Some(data) =>
      ParsedIdsCount(Split(data));
      SplitPieces(data);
      ParsedIds(Split(data))
  }

  /** Loading what was saved gives back exactly the saved IDs. */
  lemma SaveLoadRoundTrip(order: seq<Int32>)
    ensures LoadServedQuestions(Some(SaveServedQuestions(order))) == set x | x in order
  {
    var pieces := Split(SaveServedQuestions(order));
    if order == [] {
      assert pieces == [""];
      assert TryParseInt("") == None;
    } else {
      forall x | x in order
        ensures x in ParsedIds(pieces)
      {
        var i :| 0 <= i < |order| && order[i] == x;
        assert pieces[i] in pieces;
      }
      forall x | x in ParsedIds(pieces)
        ensures x in order
      {
        var t :| t in pieces && TryParseInt(t) == Some(x);
        var i :| 0 <= i < |pieces| && pieces[i] == t;
      }
    }
  }

  // ---------------------------------------------------------------------
  // The history together with its persisted copy
  // ---------------------------------------------------------------------

  /** The in-memory served set and the stored string it was last saved as. */
  datatype History = History(served: set<Int32>, stored: Option<string>)

  /** Loading the stored copy would give the in-memory set back. */
  predicate InSync(h: History)
  {
    LoadServedQuestions(h.stored) == h.served
  }

  /** `LoadServedQuestions` at start-up: the set is whatever the stored string holds. */
  function LoadHistory(stored: Option<string>): (h: History)
    ensures h.stored == stored && InSync(h)
    ensures stored == None ==> h.served == {}
  {
    History(LoadServedQuestions(stored), stored)
  }

  /**
    `MarkAsServed` with its save: a new ID is added and the whole set is saved
    again, in the enumeration order `order`; a known ID changes nothing.
   */
  function MarkAndSave(h: History, id: Int32, order: seq<Int32>): (r: History)
    requires (set x | x in order) == h.served + {id}
    ensures r.served == MarkAsServed(h.served, id)
    ensures id in h.served ==> r == h
    ensures InSync(h) ==> InSync(r)
  {
    if id in h.served then h
    else
      SaveLoadRoundTrip(order);
      History(h.served + {id}, Some(SaveServedQuestions(order)))
  }

  /** `ResetServedQuestions`: the set is cleared and the stored key deleted. */
  function ResetServedQuestions(h: History): (r: History)
    ensures r.served == {}
    ensures r.stored == None
    ensures InSync(r)
  {
    History({}, None)
  }
}

=== FILE: progress.dfy ===
/**
  The progress server: `/api/auth/login` fetches a player's record or creates
  it with the schema defaults, and `/api/game/sync` writes the progress the
  game sends back into an existing record.

  The user collection is a map from `userId` to record. Request fields that
  JSON may leave out are `Option`s; numbers are integers. The clock
  (`Date.now()`) is the parameter `now`. A reply is an HTTP status with the
  record it carries on success.
 */
module Progress {
  import opened Wrappers

  /** One player record with the fields of the user schema. */
  datatype User = User(
    userId: string,
    level: int,
    totalScore: int,
    servedQuestions: seq<int>,
    lastLogin: int)

  /** The user collection, keyed by `userId` (the schema declares it unique). */
  type Store = map<string, User>

  /** An HTTP status and, with 200, the record sent back. */
  datatype Reply = Reply(status: int, user: Option<User>)

  /** What a request returns and the collection afterwards. */
  datatype Outcome = Outcome(reply: Reply, store: Store)

  /** The schema defaults: level 1, score 0, nothing served, last login now. */
  function NewUser(userId: string, now: int): User
  {
    User(userId, 1, 0, [], now)
  }

  /** JavaScript truthiness of an optional string: present and non-empty. */
  predicate TruthyString(s: Option<string>)
  {
    s.Some? && s.value != ""
  }

  /** JavaScript truthiness of an optional number: present and non-zero. */
  predicate TruthyNumber(n: Option<int>)
  {
    n.Some? && n.value != 0
  }

  /** Every stored record sits under its own `userId`. */
  predicate Keyed(store: Store)
  {
    forall k :: k in store ==> store[k].userId == k
  }

  /** No question ID appears twice in the list. */
  predicate NoDuplicates(s: seq<int>)
  {
    forall i, j :: 0 <= i < j < |s| ==> s[i] != s[j]
  }

  // ---------------------------------------------------------------------
  // Login
  // ---------------------------------------------------------------------

  /** `/api/auth/login`: 400 without a user ID; otherwise the stored record, created first if absent. */
  function Login(store: Store, userId: Option<string>, now: int): (o: Outcome)
    ensures !TruthyString(userId) <==> o.reply.status == 400
    ensures !TruthyString(userId) ==> o.store == store && o.reply.user == None
    ensures TruthyString(userId) ==>
      && o.reply.status == 200
      && userId.value in o.store
      && o.reply.user == Some(o.store[userId.value])
      && o.store.Keys == store.Keys + {userId.value}
      && (forall k :: k in store && k != userId.value ==> o.store[k] == store[k])
    ensures TruthyString(userId) && userId.value in store ==> o.store == store && o.reply.user == Some(store[userId.value])
    ensures TruthyString(userId) && userId.value !in store ==> o.reply.user == Some(NewUser(userId.value, now))
    ensures Keyed(store) ==> Keyed(o.store)
  {
    if !TruthyString(userId) then Outcome(Reply(400, None), store)
    else
      var id := userId.value;
      if id in store then Outcome(Reply(200, Some(store[id])), store)
      else
        var user := NewUser(id, now);
        Outcome(Reply(200, Some(user)), store[id := user])
  }

  /** Logging in again, at any time, finds the record the first login left and changes nothing. */
  lemma LoginTwice(store: Store, userId: Option<string>, now1: int, now2: int)
    ensures var first := Login(store, userId, now1);
            var second := Login(first.store, userId, now2);
            second == Outcome(first.reply, first.store)
  {
  }

  // ---------------------------------------------------------------------
  // Sync
  // ---------------------------------------------------------------------

  /** The request body of `/api/game/sync`. */
  datatype SyncRequest = SyncRequest(
    userId: string,
    level: Option<int>,
    score: Option<int>,
    solvedQuestionId: Option<int>)

  /** The record after the sync's field updates, with `lastLogin` set to `now`. */
  function Merge(user: User, req: SyncRequest, now: int): (u: User)
    ensures u.userId == user.userId && u.lastLogin == now
    ensures u.level == (if TruthyNumber(req.level) then req.level.value else user.level)
    ensures u.totalScore == (if TruthyNumber(req.score) then req.score.value else user.totalScore)
    ensures TruthyNumber(req.solvedQuestionId) ==> req.solvedQuestionId.value in u.servedQuestions
    ensures forall x :: x in u.servedQuestions <==>
      x in user.servedQuestions || (TruthyNumber(req.solvedQuestionId) && x == req.solvedQuestionId.value)
    ensures |user.servedQuestions| <= |u.servedQuestions| <= |user.servedQuestions| + 1
    ensures u.servedQuestions[..|user.servedQuestions|] == user.servedQuestions
    ensures NoDuplicates(user.servedQuestions) ==> NoDuplicates(u.servedQuestions)
    ensures !TruthyNumber(req.solvedQuestionId) || req.solvedQuestionId.value in user.servedQuestions ==>
              u.servedQuestions == user.servedQuestions
    ensures TruthyNumber(req.solvedQuestionId) && req.solvedQuestionId.value !in user.servedQuestions ==>
              u.servedQuestions == user.servedQuestions + [req.solvedQuestionId.value]
  {
    var level := if TruthyNumber(req.level) then req.level.value else user.level;
    var score := if TruthyNumber(req.score) then req.score.value else user.totalScore;
    var served :=
      if TruthyNumber(req.solvedQuestionId) && req.solvedQuestionId.value !in user.servedQuestions
      then user.servedQuestions + [req.solvedQuestionId.value]
      else user.servedQuestions;
    assert served[..|user.servedQuestions|] == user.servedQuestions;
    User(user.userId, level, score, served, now)
  }

  /** `/api/game/sync`: 404 for an unknown user; otherwise the merged record is saved and sent back. */
  function Sync(store: Store, req: SyncRequest, now: int): (o: Outcome)
    ensures req.userId !in store <==> o.reply.status == 404
    ensures req.userId !in store ==> o.store == store && o.reply.user == None
    ensures req.userId in store ==>
      && o.reply.status == 200
      && o.store.Keys == store.Keys
      && o.reply.user == Some(o.store[req.userId])
      && o.store[req.userId] == Merge(store[req.userId], req, now)
      && (forall k :: k in store && k != req.userId ==> o.store[k] == store[k])
    ensures Keyed(store) ==> Keyed(o.store)
  {
    if req.userId !in store then Outcome(Reply(404, None), store)
    else
      var user := Merge(store[req.userId], req, now);
      Outcome(Reply(200, Some(user)), store[req.userId := user])
  }

  /** Sending the same progress twice leaves the record as one send did, apart from the login time. */
  lemma {:induction false} SyncIdempotent(store: Store, req: SyncRequest, now1: int, now2: int)
    requires req.userId in store
    ensures var once := Sync(store, req, now1).store;
            var twice := Sync(once, req, now2).store;
            twice == once[req.userId := once[req.userId].(lastLogin := now2)]
  {
    var u := store[req.userId];
    var m1 := Merge(u, req, now1);
    var m2 := Merge(m1, req, now2);
    assert m2.servedQuestions == m1.servedQuestions;
    assert m2 == m1.(lastLogin := now2);
  }

  /** After a login with a user ID, a sync for that ID finds the record. */
  lemma {:induction false} SyncAfterLoginFindsUser(store: Store, userId: string, now: int, req: SyncRequest, later: int)
    requires userId != "" && req.userId == userId
    ensures Sync(Login(store, Some(userId), now).store, req, later).reply.status == 200
  {
    assert TruthyString(Some(userId));
  }
}

=== FILE: pytext.dfy ===
/**
  Python's substring search on `str`, as the JSON repair scripts use it:
  `s.find(sub, start)` and `s.rfind(sub)`, with -1 for "not found".
 */
module PyText {

  /** `pat` occurs in `s` starting at index `i`. */
  predicate OccursAt(s: string, pat: string, i: int)
  {
    0 <= i && i + |pat| <= |s| && s[i..i + |pat|] == pat
  }

  /** `s.find(pat, start)`: the first occurrence at or after `start`, or -1. */
  function Find(s: string, pat: string, start: nat): (r: int)
    ensures r == -1 || (start <= r && OccursAt(s, pat, r))
    ensures forall i :: start <= i && (r == -1 || i < r) ==> !OccursAt(s, pat, i)
    decreases |s| - start
  {
    if start + |pat| > |s| then -1
    else if s[start..start + |pat|] == pat then start
    else Find(s, pat, start + 1)
  }

  /** The last occurrence starting at or before `k`, or -1. */
  function RFindUpTo(s: string, pat: string, k: int): (r: int)
    ensures r == -1 || (0 <= r <= k && OccursAt(s, pat, r))
    ensures forall i :: r < i <= k ==> !OccursAt(s, pat, i)
    decreases k
  {
    if k < 0 then -1
    else if OccursAt(s, pat, k) then k
    else RFindUpTo(s, pat, k - 1)
  }

  /** `s.rfind(pat)`: the last occurrence, or -1. */
  function RFind(s: string, pat: string): (r: int)
    ensures r == -1 || OccursAt(s, pat, r)
    ensures forall i :: r < i ==> !OccursAt(s, pat, i)
  {
    RFindUpTo(s, pat, |s| - |pat|)
  }

  /** A one-character pattern occurs exactly where that character stands. */
  lemma CharOccurs(s: string, c: char, i: int)
    ensures OccursAt(s, [c], i) <==> 0 <= i < |s| && s[i] == c
  {
    if 0 <= i < |s| {
      assert s[i..i + 1] == [s[i]];
    }
  }

  /** `rfind` of a single character fails exactly when the character is absent. */
  lemma {:induction false} RFindCharFacts(s: string, c: char)
    ensures RFind(s, [c]) == -1 <==> c !in s
    ensures RFind(s, [c]) != -1 ==> s[RFind(s, [c])] == c
  {
    var r := RFind(s, [c]);
    if r != -1 {
      CharOccurs(s, c, r);
    }
    if c in s {
      var i :| 0 <= i < |s| && s[i] == c;
      CharOccurs(s, c, i);
    }
  }

  /** `s.find(c, start)` for a one-character `c`, read character by character. */
  function FindChar(s: string, c: char, start: nat): (r: int)
    ensures r == Find(s, [c], start)
    ensures r == -1 || (start <= r < |s| && s[r] == c)
    ensures forall i :: start <= i < |s| && (r == -1 || i < r) ==> s[i] != c
  {
    FindCharFacts(s, c, start);
    Find(s, [c], start)
  }

  lemma {:induction false} FindCharFacts(s: string, c: char, start: nat)
    ensures var r := Find(s, [c], start);
            && (r == -1 || (start <= r < |s| && s[r] == c))
            && forall i :: start <= i < |s| && (r == -1 || i < r) ==> s[i] != c
  {
    var r := Find(s, [c], start);
    if r != -1 {
      CharOccurs(s, c, r);
    }
    forall i | start <= i < |s| && (r == -1 || i < r)
      ensures s[i] != c
    {
      CharOccurs(s, c, i);
    }
  }

  /** The first `c` at or after `start` is what `FindChar` finds. */
  lemma {:induction false} FindCharIsFirst(s: string, c: char, start: nat, r: int)
    requires start <= r < |s| && s[r] == c
    requires forall i :: start <= i < r ==> s[i] != c
    ensures FindChar(s, c, start) == r
  {
  }

  /** A stretch of `s` in which no position holds `c` does not contain `c`. */
  lemma {:induction false} CharAbsent(s: string, c: char, i: int, j: int)
    requires 0 <= i <= j <= |s|
    requires forall k :: i <= k < j ==> s[k] != c
    ensures c !in s[i..j]
  {
    forall x | x in s[i..j]
      ensures x != c
    {
      var k :| 0 <= k < j - i && s[i..j][k] == x;
      assert s[i + k] == x;
    }
  }

  /** `s.find(c, k)` is -1 exactly when no `c` comes at or after `k`, and otherwise has none before it. */
  lemma {:induction false} FirstOf(s: string, c: char, k: nat, r: int)
    requires k <= |s|
    requires r == FindChar(s, c, k)
    ensures r == -1 <==> c !in s[k..]
    ensures r != -1 ==> k <= r < |s| && s[r] == c && c !in s[k..r]
  {
    if r == -1 {
      CharAbsent(s, c, k, |s|);
    } else {
      CharAbsent(s, c, k, r);
      assert s[k..][r - k] == c;
    }
  }

  /** `s.rfind(c)` lies at or after `k` exactly when some `c` does, and none follows it. */
  lemma {:induction false} LastOf(s: string, c: char, k: nat, r: int)
    requires k <= |s|
    requires r == RFindChar(s, c)
    ensures k <= r <==> c in s[k..]
    ensures k <= r ==> r < |s| && s[r] == c && c !in s[r + 1..]
  {
    if k <= r {
      CharAbsent(s, c, r + 1, |s|);
      assert s[k..][r - k] == c;
    } else {
      CharAbsent(s, c, k, |s|);
    }
  }

  /** `s.rfind(c)` for a one-character `c`, read character by character. */
  function RFindChar(s: string, c: char): (r: int)
    ensures r == RFind(s, [c])
    ensures r == -1 || (0 <= r < |s| && s[r] == c)
    ensures forall i :: r < i < |s| ==> s[i] != c
    ensures r == -1 <==> c !in s
  {
    RFindCharFacts(s, c);
    forall i | RFind(s, [c]) < i < |s|
      ensures s[i] != c
    {
      CharOccurs(s, c, i);
    }
    RFind(s, [c])
  }
}

=== FILE: questions.dfy ===
/**
  The question record of the quiz catalog and the ID bookkeeping that the
  distribution engine relies on: the set of IDs of a list of questions, the
  "pairwise distinct IDs" predicate, and the filter that keeps the questions a
  player has not been served yet.
 */
module Questions {

  /** A C# `int`: question IDs, difficulties and time limits are 32-bit. */
  type Int32 = x: int | -0x8000_0000 <= x < 0x8000_0000

  /** One quiz question, field for field as the catalog JSON carries it. */
  datatype Question = Question(
    id: Int32,
    category: string,
    textTr: string,
    textEn: string,
    answer: string,
    wrong: seq<string>,
    difficulty: Int32,
    time: Int32)

  /** The IDs of the questions in `s`. */
  function Ids(s: seq<Question>): set<Int32>
  {
    set q | q in s :: q.id
  }

  /**
    No two positions of `s` hold questions with the same ID: `s` has as many
    IDs as entries (`DistinctIdsPairwise` states the positional reading).
   */
  predicate DistinctIds(s: seq<Question>)
  {
    |Ids(s)| == |s|
  }

  /**
    The questions of `s` whose ID is not in `served`, in their original order:
    the `Where(q => !servedQuestionIds.Contains(q.id))` of the source.
   */
  function Unseen(s: seq<Question>, served: set<Int32>): (r: seq<Question>)
    ensures |r| <= |s|
    ensures forall q :: q in r <==> q in s && q.id !in served
  {
    if s == [] then []
    else (if s[0].id in served then [] else [s[0]]) + Unseen(s[1..], served)
  }

  lemma IdsAppend(a: seq<Question>, b: seq<Question>)
    ensures Ids(a + b) == Ids(a) + Ids(b)
  {
    forall x | x in Ids(a + b) ensures x in Ids(a) + Ids(b) {
      var q :| q in a + b && q.id == x;
    }
    forall x | x in Ids(a) + Ids(b) ensures x in Ids(a + b) {
      if x in Ids(a) {
        var q :| q in a && q.id == x;
        assert q in a + b;
      } else {
        var q :| q in b && q.id == x;
        assert q in a + b;
      }
    }
  }

  /** Filtering distributes over concatenation. */
  lemma {:induction false} UnseenAppend(a: seq<Question>, b: seq<Question>, served: set<Int32>)
    ensures Unseen(a + b, served) == Unseen(a, served) + Unseen(b, served)
  {
    if a == [] {
      assert a + b == b;
    } else {
      assert (a + b)[0] == a[0];
      assert (a + b)[1..] == a[1..] + b;
      UnseenAppend(a[1..], b, served);
    }
  }

  /** Marking IDs that `s` does not contain does not change what `s` has unseen. */
  lemma {:induction false} UnseenIgnoresForeignIds(s: seq<Question>, served: set<Int32>, extra: set<Int32>)
    requires Ids(s) !! extra
    ensures Unseen(s, served + extra) == Unseen(s, served)
  {
    if s != [] {
      assert s[0] in s;
      assert Ids(s[1..]) <= Ids(s) by {
        forall x | x in Ids(s[1..]) ensures x in Ids(s) {
          var q :| q in s[1..] && q.id == x;
          assert q in s;
        }
      }
      UnseenIgnoresForeignIds(s[1..], served, extra);
    }
  }

  /** With nothing served, every question is unseen. */
  lemma {:induction false} UnseenNothingServed(s: seq<Question>)
    ensures Unseen(s, {}) == s
  {
    if s != [] {
      UnseenNothingServed(s[1..]);
    }
  }

  /** Lists with the same members have the same IDs. */
  lemma IdsSameMembers(a: seq<Question>, b: seq<Question>)
    requires forall q :: q in a <==> q in b
    ensures Ids(a) == Ids(b)
  {
  }

  lemma IdsCons(s: seq<Question>)
    requires s != []
    ensures Ids(s) == {s[0].id} + Ids(s[1..])
  {
    assert s == [s[0]] + s[1..];
    IdsAppend([s[0]], s[1..]);
    assert Ids([s[0]]) == {s[0].id};
  }

  /** A list never has more IDs than entries. */
  lemma {:induction false} IdsCard(s: seq<Question>)
    ensures |Ids(s)| <= |s|
  {
    if s != [] {
      IdsCons(s);
      IdsCard(s[1..]);
    }
  }

  lemma DistinctIdsAppend(a: seq<Question>, b: seq<Question>)
    ensures DistinctIds(a + b) <==> DistinctIds(a) && DistinctIds(b) && Ids(a) !! Ids(b)
  {
    IdsAppend(a, b);
    IdsCard(a);
    IdsCard(b);
    if Ids(a) !! Ids(b) {
      assert Ids(a) * Ids(b) == {};
    } else {
      var x :| x in Ids(a) && x in Ids(b);
      assert x in Ids(a) * Ids(b);
    }
  }

  /** The first question's ID is not repeated, and the rest have distinct IDs. */
  lemma DistinctIdsCons(s: seq<Question>)
    requires s != []
    ensures DistinctIds(s) <==> s[0].id !in Ids(s[1..]) && DistinctIds(s[1..])
  {
    assert s == [s[0]] + s[1..];
    DistinctIdsAppend([s[0]], s[1..]);
    assert Ids([s[0]]) == {s[0].id};
  }

  /** Distinct IDs are exactly IDs that differ at every two positions. */
  lemma {:induction false} DistinctIdsPairwise(s: seq<Question>)
    ensures DistinctIds(s) <==> forall i, j :: 0 <= i < j < |s| ==> s[i].id != s[j].id
  {
    if s != [] {
      DistinctIdsCons(s);
      DistinctIdsPairwise(s[1..]);
      if DistinctIds(s) {
        forall i, j | 0 <= i < j < |s| ensures s[i].id != s[j].id {
          if i == 0 {
            assert s[j] in s[1..];
          } else {
            assert s[i] == s[1..][i - 1] && s[j] == s[1..][j - 1];
          }
        }
      }
      if forall i, j :: 0 <= i < j < |s| ==> s[i].id != s[j].id {
        forall i, j | 0 <= i < j < |s[1..]| ensures s[1..][i].id != s[1..][j].id {
          assert s[1..][i] == s[i + 1] && s[1..][j] == s[j + 1];
        }
      }
    }
  }

  lemma DistinctIdsPrefix(s: seq<Question>, n: nat)
    requires n <= |s|
    requires DistinctIds(s)
    ensures DistinctIds(s[..n])
  {
    assert s == s[..n] + s[n..];
    DistinctIdsAppend(s[..n], s[n..]);
  }

  /** Filtering keeps IDs distinct. */
  lemma {:induction false} DistinctIdsUnseen(s: seq<Question>, served: set<Int32>)
    requires DistinctIds(s)
    ensures DistinctIds(Unseen(s, served))
  {
    if s != [] {
      var head := if s[0].id in served then [] else [s[0]];
      var tail := Unseen(s[1..], served);
      assert Unseen(s, served) == head + tail;
      assert s[0].id !in Ids(s[1..]) && DistinctIds(s[1..]) by {
        DistinctIdsCons(s);
      }
      assert DistinctIds(tail) by {
        DistinctIdsUnseen(s[1..], served);
      }
      assert Ids(tail) <= Ids(s[1..]) by {
        IdsUnseen(s[1..], served);
      }
      assert DistinctIds(head) && Ids(head) <= {s[0].id} by {
        if head != [] {
          assert Ids(head) == {s[0].id};
        }
      }
      DistinctIdsAppend(head, tail);
    }
  }

  /** The IDs of the unseen questions are the IDs of `s` that are not served. */
  lemma IdsUnseen(s: seq<Question>, served: set<Int32>)
    ensures Ids(Unseen(s, served)) == Ids(s) - served
  {
    var u := Unseen(s, served);
    forall x | x in Ids(s) - served ensures x in Ids(u) {
      var q :| q in s && q.id == x;
      assert q in u;
    }
  }

  /**
    For a catalog with distinct IDs, the number of unseen questions is the
    number of catalog IDs that are not served.
   */
  lemma UnseenCount(s: seq<Question>, served: set<Int32>)
    requires DistinctIds(s)
    ensures |Unseen(s, served)| == |Ids(s) - served|
  {
    DistinctIdsUnseen(s, served);
    IdsUnseen(s, served);
  }

  /**
    Two lists of distinct IDs and equal length, the first's questions all in
    the second, are rearrangements of each other.
   */
  lemma {:induction false} DistinctSameMembers(a: seq<Question>, b: seq<Question>)
    requires DistinctIds(a) && DistinctIds(b) && |a| == |b|
    requires forall q :: q in a ==> q in b
    ensures multiset(a) == multiset(b)
    decreases |a|
  {
    if a != [] {
      assert a[0] in b;
      var k :| 0 <= k < |b| && b[k] == a[0];
      var rest := b[..k] + b[k + 1..];
      assert b == b[..k] + [b[k]] + b[k + 1..];
      DistinctIdsCons(a);
      assert DistinctIds(rest) by {
        DistinctIdsAppend(b[..k] + [b[k]], b[k + 1..]);
        DistinctIdsAppend(b[..k], [b[k]]);
        DistinctIdsAppend(b[..k], b[k + 1..]);
        IdsAppend(b[..k], [b[k]]);
      }
      forall q | q in a[1..] ensures q in rest {
        assert q.id in Ids(a[1..]) && q in b;
        var j :| 0 <= j < |b| && b[j] == q;
        if j < k {
          assert b[j] == rest[j];
        } else {
          assert b[j] == rest[j - 1];
        }
      }
      DistinctSameMembers(a[1..], rest);
      assert a == [a[0]] + a[1..];
    }
  }

  /**
    A rearrangement of `s` has its length and its questions, and keeps its
    IDs distinct.
   */
  lemma Rearranged(s: seq<Question>, r: seq<Question>)
    requires multiset(r) == multiset(s)
    ensures |r| == |s|
    ensures forall q :: q in r <==> q in s
    ensures DistinctIds(s) ==> DistinctIds(r)
  {
    assert |multiset(r)| == |r| && |multiset(s)| == |s|;
    forall q ensures q in r <==> q in s {
      assert q in r <==> q in multiset(r);
      assert q in s <==> q in multiset(s);
    }
    assert Ids(r) == Ids(s);
  }
}

=== FILE: smartfix.dfy ===
/**
  `smart_fix_json.py`: repairs a truncated or garbage-tailed catalog file by
  finding where the `"questions"` array closes and cutting the text there.

  The scan walks from the array's `[` and tracks the bracket balance, whether
  it is inside a string literal, and whether the previous character was a
  backslash. The result is the new file text, or `None` when the script
  writes nothing (it exits early or gives up).
 */
module SmartFixJson {
  import opened Wrappers
  import opened PyText

  /** The scanner's three variables `balance`, `in_string` and `escape`. */
  datatype ScanState = ScanState(balance: int, inString: bool, escape: bool)

  const Start := ScanState(0, false, false)

  /** One pass of the loop body on character `ch`, when it does not break out. */
  function Step(st: ScanState, ch: char): ScanState
  {
    if st.escape then st.(escape := false)
    else if ch == '\\' then st.(escape := true)
    else if ch == '"' then st.(inString := !st.inString)
    else if !st.inString && ch == '[' then st.(balance := st.balance + 1)
    else if !st.inString && ch == ']' then st.(balance := st.balance - 1)
    else st
  }

  /**
    A backslash makes the next character skipped, inside a string or not; a
    quote toggles the string state; brackets count only outside strings, and
    no other character (braces included) moves the balance.
   */
  lemma StepRules(st: ScanState, ch: char)
    ensures st.escape ==> Step(st, ch) == st.(escape := false)
    ensures !st.escape && ch == '\\' ==> Step(st, ch) == st.(escape := true)
    ensures !st.escape && ch == '"' ==> Step(st, ch) == st.(inString := !st.inString)
    ensures st.inString || (ch != '[' && ch != ']') ==> Step(st, ch).balance == st.balance
    ensures !st.escape && !st.inString && ch == '[' ==> Step(st, ch).balance == st.balance + 1
    ensures !st.escape && !st.inString && ch == ']' ==> Step(st, ch).balance == st.balance - 1
  {
  }

  /** The pass on `ch` is the one that breaks out: an unescaped `]` outside a string brings the balance to 0. */
  predicate Closes(st: ScanState, ch: char)
  {
    !st.escape && !st.inString && ch == ']' && st.balance == 1
  }

  /** The scanner's state after the characters `content[start..i]`. */
  function StateAt(content: string, start: nat, i: nat): ScanState
    requires start <= i <= |content|
    decreases i
  {
    if i == start then Start else Step(StateAt(content, start, i - 1), content[i - 1])
  }

  /** Reference definition of `cutoff_index`: the first closing position at or after `i`, or -1. */
  function FirstClose(content: string, start: nat, i: nat): (r: int)
    requires start <= i <= |content|
    ensures r == -1 || (i <= r < |content| && Closes(StateAt(content, start, r), content[r]))
    ensures forall j {:trigger StateAt(content, start, j)} :: i <= j < |content| && (r == -1 || j < r) ==> !Closes(StateAt(content, start, j), content[j])
    decreases |content| - i
  {
    if i == |content| then -1
    else if Closes(StateAt(content, start, i), content[i]) then i
    else FirstClose(content, start, i + 1)
  }

  /**
    The bracket-balance loop of `smart_fix_json`, run from `start`: the first index at which the
    balance returns to 0 on a `]`, or -1 when the text ends first.
   */
  method ScanForCutoff(content: string, start: nat) returns (cutoff: int)
    requires start <= |content|
    ensures cutoff == FirstClose(content, start, start)
    ensures cutoff != -1 ==> start <= cutoff < |content| && content[cutoff] == ']'
  {
    var balance := 0;
    var inString := false;
    var escape := false;
    cutoff := -1;
    var i := start;
    while i < |content|
      invariant start <= i <= |content|
      invariant ScanState(balance, inString, escape) == StateAt(content, start, i)
      invariant FirstClose(content, start, i) == FirstClose(content, start, start)
      decreases |content| - i
    {
      var ch := content[i];
      ghost var st := ScanState(balance, inString, escape);
      assert StateAt(content, start, i + 1) == Step(st, ch);
      if escape {
        escape := false;
      } else if ch == '\\' {
        escape := true;
      } else if ch == '"' {
        inString := !inString;
      } else if !inString {
        if ch == '[' {
          balance := balance + 1;
        } else if ch == ']' {
          balance := balance - 1;
          if balance == 0 {
            cutoff := i;
            return;
          }
        }
      }
      i := i + 1;
    }
  }

  /** The whole script as a function of the file text. */
  function SmartFix(content: string): (r: Option<string>)
    ensures ArrayStart(content) == -1 ==> r == None
    ensures r.Some? ==> |r.value| > 0 && r.value[|r.value| - 1] == '}'
  {
    var arrayStart := ArrayStart(content);
    if arrayStart == -1 then None else Rewrite(content, arrayStart)
  }

  /** The key the script looks for. */
  const QuestionsKey := "\"questions\":"

  /** `content.find('"questions":')`: where the key first occurs, or -1. */
  function KeyAt(content: string): (k: int)
    ensures k == -1 || OccursAt(content, QuestionsKey, k)
    ensures forall i :: 0 <= i && (k == -1 || i < k) ==> !OccursAt(content, QuestionsKey, i)
  {
    Find(content, QuestionsKey, 0)
  }

  /**
    Where the array the script works on opens: -1 when the key is missing or
    no `[` follows it, otherwise the first `[` at or after the key.
   */
  function ArrayStart(content: string): (a: int)
    ensures a == -1 || (0 <= a < |content| && content[a] == '[')
    ensures a == -1 <==> KeyAt(content) == -1 || '[' !in content[KeyAt(content)..]
    ensures a != -1 ==> KeyAt(content) <= a && '[' !in content[KeyAt(content)..a]
  {
    var keyAt := KeyAt(content);
    if keyAt == -1 then -1
    else
      var a := FindChar(content, '[', keyAt);
      FirstOf(content, '[', keyAt, a);
      a
  }

  /** The rewrite `smart_fix_json` chooses once the array has opened at `arrayStart`: cut after the closing `]`, or salvage the last complete object. */
  function Rewrite(content: string, arrayStart: nat): (r: Option<string>)
    requires arrayStart < |content|
    ensures r.Some? ==> |r.value| > 0 && r.value[|r.value| - 1] == '}'
  {
    var cutoff := FirstClose(content, arrayStart, arrayStart);
    if cutoff != -1 then
      var rootEnd := FindChar(content, '}', cutoff);
      if rootEnd != -1 then Some(content[..rootEnd + 1])
      else Some(content[..cutoff + 1] + "\n}")
    else
      var lastObjEnd := RFindChar(content, '}');
      if lastObjEnd != -1 && lastObjEnd > arrayStart then Some(content[..lastObjEnd + 1] + "\n  ]\n}")
      else None
  }

  /**
    When the array closes at the cut-off, the script keeps the text up to the
    first `}` at or after it, or, with no such `}`, the text up to the cut-off
    and a closing `}`.
   */
  lemma {:induction false} ClosedArrayOutcome(content: string, a: nat)
    requires a < |content|
    requires FirstClose(content, a, a) != -1
    ensures var cutoff := FirstClose(content, a, a);
            var r := Rewrite(content, a);
            && ('}' in content[cutoff..] ==>
                  exists k :: cutoff <= k < |content| && content[k] == '}' && '}' !in content[cutoff..k]
                              && r == Some(content[..k + 1]))
            && ('}' !in content[cutoff..] ==> r == Some(content[..cutoff + 1] + "\n}"))
  {
    var cutoff := FirstClose(content, a, a);
    var k := FindChar(content, '}', cutoff);
    FirstOf(content, '}', cutoff, k);
    if k != -1 {
      assert Rewrite(content, a) == Some(content[..k + 1]);
    } else {
      assert Rewrite(content, a) == Some(content[..cutoff + 1] + "\n}");
    }
  }

  /**
    When the array never closes, the script keeps the text up to the last `}`
    and closes the array and the document, provided that `}` lies after the
    opening `[`; otherwise it writes nothing.
   */
  lemma {:induction false} UnclosedArrayOutcome(content: string, a: nat)
    requires a < |content|
    requires FirstClose(content, a, a) == -1
    ensures var r := Rewrite(content, a);
            && ('}' in content[a + 1..] ==>
                  exists k :: a < k < |content| && content[k] == '}' && '}' !in content[k + 1..]
                              && r == Some(content[..k + 1] + "\n  ]\n}"))
            && ('}' !in content[a + 1..] ==> r == None)
  {
    var k := RFindChar(content, '}');
    LastOf(content, '}', a + 1, k);
    if k > a {
      assert Rewrite(content, a) == Some(content[..k + 1] + "\n  ]\n}");
    } else {
      assert Rewrite(content, a) == None;
    }
  }

  /**
    From the opening `[` up to the cut-off, the scan stays inside the array:
    the balance is at least 1 after each character, and it is 0 right after
    the cut-off's `]`. So the cut-off is the bracket that matches the opening one.
   */
  lemma {:induction false} ArrayOpenUntilCutoff(content: string, start: nat, j: nat)
    requires start < j <= |content| && content[start] == '['
    requires forall k {:trigger StateAt(content, start, k)} :: start <= k < j ==> !Closes(StateAt(content, start, k), content[k])
    ensures StateAt(content, start, j).balance >= 1
    decreases j
  {
    if j == start + 1 {
      assert StateAt(content, start, j) == Step(Start, '[');
    } else {
      ArrayOpenUntilCutoff(content, start, j - 1);
      StepRules(StateAt(content, start, j - 1), content[j - 1]);
    }
  }

  /** The cut-off, when the scan finds one, is the `]` matching the opening `[`. */
  lemma {:induction false} CutoffMatchesOpening(content: string, start: nat)
    requires start < |content| && content[start] == '['
    ensures var cutoff := FirstClose(content, start, start);
            cutoff != -1 ==>
              && start < cutoff
              && content[cutoff] == ']'
              && StateAt(content, start, cutoff + 1).balance == 0
              && forall j :: start < j <= cutoff ==> StateAt(content, start, j).balance >= 1
  {
    var cutoff := FirstClose(content, start, start);
    if cutoff != -1 {
      forall j | start < j <= cutoff
        ensures StateAt(content, start, j).balance >= 1
      {
        ArrayOpenUntilCutoff(content, start, j);
      }
      StepRules(StateAt(content, start, cutoff), content[cutoff]);
    }
  }

  /**
    A rewrite never cuts into the document head: it keeps the text up to and
    including the array's opening bracket.
   */
  lemma {:induction false} SmartFixKeepsHead(content: string)
    ensures var r := SmartFix(content);
            var a := ArrayStart(content);
            r.Some? ==> 0 <= a < |content| && |r.value| > a && r.value[..a + 1] == content[..a + 1]
  {
    var a := ArrayStart(content);
    if a != -1 {
      RewriteKeepsHead(content, a);
    }
  }

  /** Each rewrite keeps the text up to and including the opening `[` at `a`. */
  lemma {:induction false} RewriteKeepsHead(content: string, a: nat)
    requires a < |content| && content[a] == '['
    ensures var r := Rewrite(content, a);
            r.Some? ==> |r.value| > a && r.value[..a + 1] == content[..a + 1]
  {
    var cutoff := FirstClose(content, a, a);
    CutoffMatchesOpening(content, a);
    if cutoff != -1 {
      var rootEnd := FindChar(content, '}', cutoff);
      if rootEnd != -1 {
        assert content[..rootEnd + 1][..a + 1] == content[..a + 1];
      } else {
        assert (content[..cutoff + 1] + "\n}")[..a + 1] == content[..a + 1];
      }
    } else {
      var lastObjEnd := RFindChar(content, '}');
      if lastObjEnd != -1 && lastObjEnd > a {
        assert (content[..lastObjEnd + 1] + "\n  ]\n}")[..a + 1] == content[..a + 1];
      }
    }
  }
}

=== FILE: wrappers.dfy ===
/** `Option`, for values that may be absent. */
module Wrappers {

  /** Some value, or nothing (a missing key, a failed parse, an absent JSON field). */
  datatype Option<+T> = None | Some(value: T)
}
